=== FILE: README.md ===
# Parking-lot slot allocation, modelled in Dafny

This project models the allocation engine of a Spring Boot parking-lot
service. The lot has slot rows, each with a number, a floor, a vehicle type
(BIKE, CAR, TRUCK) and a status (FREE or OCCUPIED). For every pair of entry
gate and vehicle type the service keeps a min-heap of FREE slots, ordered by
a precomputed distance from that gate. Around those heaps sit:

- `allocateSlot`: poll the nearest entry, re-read the row, drop stale
  candidates, save the winner OCCUPIED and purge it from every gate's heap
  of its type;
- `releaseSlot`: save the slot FREE and offer one entry per gate;
- two builds of the heaps: the administrative rebuild, which defaults a
  missing distance to `Integer.MAX_VALUE`, and the startup build, which
  fails on a missing distance;
- the entry, fare-quote and exit guards that drive them;
- the administrative add, update and delete of slot rows;
- the fare rule;
- the mapping from a sign-in email to a role.

Everything is a value. A heap is a `multiset` of entries, and "poll" removes
some minimal entry, so any one of several entries at the same distance may
come out. The stores (slots, tickets, vehicles, payments, pricing rules) are
maps. The gate enumeration and the distance table form a `Config`. The time
parked is an input in minutes. Ids that the database generates are
parameters.

The central invariant is `Allocator.Mirrors`. It says the directory rows are
keyed by id, and each heap holds exactly one entry for each FREE row of its
type, with its gate's distance, and nothing else. `Allocator.MirrorsMeansRebuilt`
shows this is the same as "the heaps equal a rebuild from the rows".
Allocation and release of an OCCUPIED slot keep it, and so does every entry,
quote and exit in a coherent lot (`Workflow.Coherent`). The lot as seeded at startup satisfies it.

Modules: `Domain` (shared types), `SlotDistance` (the heap element and its
order), `DistanceTable` (the distance map), `HeapIndex` (builds, poll,
purge), `Allocator`, `Pricing`, `Roles`, `Admin`, `Workflow` (entry, quote,
exit), `Seed` (startup data) and `Wiring` (which heaps the administrative
rebuild reaches).

## Model

| member | source | states |
|---|---|---|
| SlotDistance.Compare | src/main/java/com/example/parking/util/SlotDistance.java:17-19 | the comparison is the sign of the exact difference of the two distances, so it cannot overflow |
| SlotDistance.CompareAntisymmetric | src/main/java/com/example/parking/util/SlotDistance.java:17-19 | swapping the operands negates the result |
| SlotDistance.CompareTransitive | src/main/java/com/example/parking/util/SlotDistance.java:17-19 | "no later than" and "strictly before" are both transitive |
| SlotDistance.CompareTotal | src/main/java/com/example/parking/util/SlotDistance.java:17-19 | any two entries are comparable, so the order is a total preorder on distance |
| SlotDistance.TiesAreUnordered | src/main/java/com/example/parking/util/SlotDistance.java:18 | two entries compare equal exactly when their distances are equal, whatever their slots |
| SlotDistance.SentinelSortsLast | src/main/java/com/example/parking/util/SlotDistance.java:18 | an entry at `Integer.MAX_VALUE` comes no earlier than any other entry |
| SlotDistance.MinExists | src/main/java/com/example/parking/util/SlotDistance.java:17-19 | every non-empty heap has an entry no later than all others, which is what `poll` returns |
| DistanceTable.BuildDistanceMap | src/main/java/com/example/parking/config/DistanceConfig.java:24-28 | the map's keys are exactly the keys `gate + "_" + slotNumber` of the entries, and the map is no larger than the list |
| DistanceTable.BuildDistanceMapSpec | src/main/java/com/example/parking/config/DistanceConfig.java:24-28 | a key maps to the distance of the last entry with that key |
| DistanceTable.ListedPairIsFound | src/main/java/com/example/parking/config/DistanceConfig.java:24-28 | every listed (gate, slot number) pair passes the strict lookup of the built map, and the last entry for the pair is the distance both lookups report |
| DistanceTable.PutAllLastWins | src/main/java/com/example/parking/config/DistanceConfig.java:27 | putting pairs in order leaves each key with the value of its last occurrence |
| DistanceTable.StrictDistance | src/main/java/com/example/parking/config/DataInitializer.java:68-74 | a missing key is an error naming the pair; a present key yields exactly the mapped value, so the default is never reached |
| DistanceTable.DefaultDistance | src/main/java/com/example/parking/service/HeapManager.java:47-48 | a listed pair reads its mapped distance; an unlisted pair reads `Integer.MAX_VALUE`, so it ranks after every listed one |
| HeapIndex.Rebuild | src/main/java/com/example/parking/service/HeapManager.java:28-41 | every gate gets a heap for every type and no other heap exists; an entry's multiplicity is 1 when its slot is a FREE row of the heap's type carrying the defaulting distance, else 0 |
| HeapIndex.RebuildSameSlotsAtEveryGate | src/main/java/com/example/parking/service/HeapManager.java:30-38 | for a type, every gate's heap holds entries for the same slots, the FREE rows of that type |
| HeapIndex.RebuildReadsOnlyFreeRows | src/main/java/com/example/parking/service/HeapManager.java:34-37 | two slot lists with the same FREE rows give the same index, whatever else they hold |
| HeapIndex.StartupBuild | src/main/java/com/example/parking/config/DataInitializer.java:53-74 | the build fails exactly when some FREE slot lacks a distance at some gate, and reports only such pairs; when it succeeds it equals the administrative rebuild |
| HeapIndex.Poll | src/main/java/com/example/parking/service/ParkingService.java:172 | the polled entry was in the heap and is no later than any entry in it; the rest is the heap minus that one entry |
| HeapIndex.RemoveSlot | src/main/java/com/example/parking/service/ParkingService.java:197-199 | every entry for the slot id is gone and every other entry keeps its multiplicity |
| HeapIndex.RemoveFromAllGates | src/main/java/com/example/parking/service/ParkingService.java:193-201 | the slot is purged from its type's heap at every gate, and every other heap is unchanged |
| Allocator.Fresh | src/main/java/com/example/parking/service/ParkingService.java:175-177 | a candidate whose row is gone is never fresh; otherwise the stored row decides: it is fresh exactly when that row is FREE, whatever status the heap's copy carries |
| Allocator.MirrorsMeansRebuilt | src/main/java/com/example/parking/service/HeapManager.java:28-41 | the heaps mirror the rows if and only if they equal a rebuild from the rows |
| Allocator.MirrorFreshCandidate | src/main/java/com/example/parking/service/ParkingService.java:171-187 | under a mirroring index a (gate, type) heap holds a candidate passing the re-read if and only if some row of that type is FREE |
| Allocator.PollFresh | src/main/java/com/example/parking/service/ParkingService.java:171-178 | nothing is found exactly when no entry passes the re-read, and then the heap is drained; the winner passes it; the entries dropped before it all failed it and are no farther than it; no remaining or passing entry is nearer |
| Allocator.PollStale | src/main/java/com/example/parking/service/ParkingService.java:171-178 | dropping a stale minimum keeps the loop's invariants: everything polled so far failed the re-read and is no farther than anything still queued |
| Allocator.PollWinner | src/main/java/com/example/parking/service/ParkingService.java:171-178 | a fresh minimum is the winner: the entries polled before it failed the re-read and are no farther, and no fresh entry of the heap is nearer |
| Allocator.Allocate | src/main/java/com/example/parking/service/ParkingService.java:167-201 | null exactly when every candidate fails the re-read; the handed-out slot was FREE on the re-read and is saved OCCUPIED; it is nearest; it is gone from every gate's heap of its type; the polled heap loses only the winner's slot and candidates that failed the re-read and were no farther than the winner; no heap gains an entry; other types' heaps are untouched; under a mirroring index it succeeds iff a FREE row of the type exists, and the index keeps mirroring |
| Allocator.FullOutcome | src/main/java/com/example/parking/service/ParkingService.java:171-187 | when every candidate fails the re-read the heap is drained; under a mirroring index that means no row of the type is FREE and nothing changes |
| Allocator.AllocatedOutcome | src/main/java/com/example/parking/service/ParkingService.java:171-184 | the polled winner, saved OCCUPIED and purged from every gate, is the nearest candidate left, is gone from every heap of its type, the polled heap loses only the winner's slot and candidates that failed the re-read and were no farther than the winner, no heap gains an entry, other heaps are left alone, and under a mirroring index keeps it mirroring and is nearest among all FREE rows of the type |
| Allocator.AllocationLosses | src/main/java/com/example/parking/service/ParkingService.java:171-184 | after a successful allocation no heap gains an entry, and the polled heap loses, besides the winner's slot, only entries that failed the re-read and were no farther than the winner |
| Allocator.Release | src/main/java/com/example/parking/service/ParkingService.java:206-217 | the row is saved FREE, and each gate's heap of the slot's type gains exactly one entry with that gate's distance or `Integer.MAX_VALUE`; nothing else changes |
| Allocator.ReleaseKeepsMirror | src/main/java/com/example/parking/service/ParkingService.java:206-217 | releasing a slot that is OCCUPIED (or has no row) keeps the heaps mirroring the rows |
| Allocator.ReleaseUndoesAllocation | src/main/java/com/example/parking/service/ParkingService.java:179-217 | taking a FREE slot and then releasing it restores the original rows and heaps exactly |
| Allocator.ReleaseOfFreeSlotDuplicates | src/main/java/com/example/parking/service/ParkingService.java:206-216 | releasing a slot that is already FREE lists it twice in each gate's heap, because the prior status is never checked |
| Pricing.StartedHours | src/main/java/com/example/parking/service/PricingStrategy.java:29 | the result is the least whole number of hours covering the chargeable minutes |
| Pricing.ChargedHours | src/main/java/com/example/parking/service/PricingStrategy.java:24-29 | no hours within the free window (negative minutes included), otherwise the started hours past it |
| Pricing.Fare | src/main/java/com/example/parking/service/PricingStrategy.java:24-30 | nothing within the free window; past it, the rate times the started hours past the window (the least whole-hour cover) |
| Pricing.CalculateFare | src/main/java/com/example/parking/service/PricingStrategy.java:20-31 | a type without a rule is refused with 400, and only then |
| Pricing.ChargedHoursIsLeastCover | src/main/java/com/example/parking/service/PricingStrategy.java:28-30 | the charged hours are at most any whole number of hours that covers the minutes past the free window |
| Pricing.FareAtLeastOneHour | src/main/java/com/example/parking/service/PricingStrategy.java:28-30 | past the free window, at a non-negative rate, the fare is at least one hour's rate |
| Pricing.FareIsMultipleOfRate | src/main/java/com/example/parking/service/PricingStrategy.java:28-30 | the fare is a non-negative whole multiple of the rate |
| Pricing.FareMonotone | src/main/java/com/example/parking/service/PricingStrategy.java:28-30 | at a non-negative rate a longer stay never costs less |
| Pricing.CarFares | src/main/java/com/example/parking/service/PricingStrategy.java:24-30 | with the seeded CAR rule: 1 minute costs 0, 61 cost 20, 62 and 121 cost 40 |
| Roles.Trim | src/main/java/com/example/parking/security/GoogleJwtRoleConverter.java:29 | the trimmed email neither starts nor ends with a character at or below U+0020 |
| Roles.TrimIsSlice | src/main/java/com/example/parking/security/GoogleJwtRoleConverter.java:29 | the trimmed email is a slice of the input with only such characters outside it |
| Roles.Convert | src/main/java/com/example/parking/security/GoogleJwtRoleConverter.java:23-41 | at most one authority; none exactly when there is no email; ROLE_ADMIN exactly when the normalised email equals a lower-cased admin entry; otherwise ROLE_USER |
| Roles.ConvertIgnoresUserList | src/main/java/com/example/parking/security/GoogleJwtRoleConverter.java:35-40 | the user list never changes the outcome |
| Roles.AdminListWins | src/main/java/com/example/parking/security/GoogleJwtRoleConverter.java:31-37 | an email on both lists gets ROLE_ADMIN |
| Roles.AdminMatchIgnoresCaseAndBlanks | src/main/java/com/example/parking/security/GoogleJwtRoleConverter.java:29-33 | an admin's address spelled with other case or surrounding blanks still gets ROLE_ADMIN |
| Roles.NormalizeIdempotent | src/main/java/com/example/parking/security/GoogleJwtRoleConverter.java:29 | normalising twice gives the same as normalising once |
| Admin.AddSlot | src/main/java/com/example/parking/controller/AdminSlotController.java:35-47 | 400 exactly when the number is taken, with nothing saved or rebuilt; otherwise 200, the row saved FREE under the new id, and the heaps rebuilt from every row |
| Admin.UpdateSlot | src/main/java/com/example/parking/controller/AdminSlotController.java:52-68 | an unknown id gives 404 with nothing changed; a number held by another row gives 500 with nothing changed; otherwise the fields are overwritten under the same id and the heaps rebuilt |
| Admin.DeleteSlot | src/main/java/com/example/parking/controller/AdminSlotController.java:74-86 | 204 exactly when the id exists, with the row removed and the heaps rebuilt; 404 with nothing changed otherwise |
| Admin.AdminOpsKeepSynced | src/main/java/com/example/parking/controller/AdminSlotController.java:35-86 | after any add, update or delete, successful or not, the index equals a rebuild from the current rows |
| Admin.AdminOpsKeepNumbersUnique | src/main/java/com/example/parking/controller/AdminSlotController.java:36-59 | no administrative operation makes two rows share a slot number |
| Admin.AddThenDelete | src/main/java/com/example/parking/controller/AdminSlotController.java:35-86 | adding a slot and deleting it again restores the rows, and from a synced store the heaps too |
| Admin.AddIgnoresRequestedStatus | src/main/java/com/example/parking/controller/AdminSlotController.java:41 | the status in an add request has no effect |
| Admin.UpdateIdempotent | src/main/java/com/example/parking/controller/AdminSlotController.java:52-68 | repeating a successful update changes nothing more |
| Admin.AddedSlotIsListed | src/main/java/com/example/parking/controller/AdminSlotController.java:41-44 | after an add, the new slot is in its type's heap at every gate exactly once, with that gate's distance |
| Workflow.AtMostOneActive | src/main/java/com/example/parking/repository/TicketRepository.java:11-12 | in a coherent ledger a plate has at most one ACTIVE ticket |
| Workflow.EnterVehicle | src/main/java/com/example/parking/service/ParkingService.java:46-79 | an ACTIVE ticket on the plate gives 409 before anything else, with nothing changed; an unknown gate gives 500; success iff a fresh candidate exists, and then a slot that was FREE is now OCCUPIED under a new ACTIVE ticket, no heap gains an entry, and the slot is gone from every gate's heap of its type; a known gate whose heap has no fresh candidate gives 409 "Parking full", and only then, with that heap drained and nothing else changed; in a coherent lot coherence is kept, success iff a FREE slot of the type exists and otherwise 409 "Parking full" with nothing changed, the slot is nearest, and releasing it undoes the entry |
| Workflow.CalculateTicketFare | src/main/java/com/example/parking/service/ParkingService.java:81-112 | an unknown or non-ACTIVE ticket is refused with 400 and nothing changes; a missing rule gives 400; success appends one PENDING payment row with the fare for the vehicle's type |
| Workflow.ExitVehicle | src/main/java/com/example/parking/service/ParkingService.java:114-162 | 400 before any write for a missing ticket, a non-ACTIVE ticket, no payment row, or an underpayment; success exactly when all checks pass, and then the payment is SUCCESS, the ticket CLOSED, the slot released, and the change is paid minus due, never negative |
| Workflow.FareKeepsCoherent | src/main/java/com/example/parking/service/ParkingService.java:81-112 | a fare quote keeps the lot coherent |
| Workflow.ExitKeepsCoherent | src/main/java/com/example/parking/service/ParkingService.java:135-144 | an exit keeps the lot coherent |
| Workflow.ExitIsFinal | src/main/java/com/example/parking/service/ParkingService.java:119-142 | after an exit the plate has no ACTIVE ticket, and a second exit with the ticket is refused with 400 without any change |
| Workflow.QuoteThenExit | src/main/java/com/example/parking/service/ParkingService.java:103-144 | a quote followed by an exit paying at least the quote closes the ticket and frees its slot, with the overpayment as change |
| Workflow.RequoteBlocksExit | src/main/java/com/example/parking/service/ParkingService.java:104-125 | quoting a second time leaves several payment rows, after which every exit with the ticket fails with 500 |
| Seed.SeedCounts | src/main/java/com/example/parking/config/DataInitializer.java:76-110 | 26 rows are seeded: 10 CAR, 8 BIKE and 8 TRUCK |
| Seed.SeedRows | src/main/java/com/example/parking/config/DataInitializer.java:76-110 | the seeded rows get ids 1 to 26 in save order, are all FREE on floors 1 to 4, and no two share a number |
| Seed.SavedInOrderShape | src/main/java/com/example/parking/config/DataInitializer.java:76-110 | saving rows in order keys them 1 to n, each row under its own id, and keeps distinct numbers distinct |
| Seed.SeedDirectoryShape | src/main/java/com/example/parking/config/DataInitializer.java:76-110 | the seeded store holds the ids 1 to 26, each row under its own id, all FREE, with unique numbers |
| Seed.SeedRulesShape | src/main/java/com/example/parking/config/DataInitializer.java:44-46 | every type has a rule with one free minute, so no quote is refused for want of a rule; the CAR rule is `Pricing.CarRule` (20 per hour), BIKE pays 10 and TRUCK 30 |
| Seed.Opened | src/main/java/com/example/parking/config/DataInitializer.java:42-63 | the lot opens exactly when the startup build succeeds over the seeded rows, with those rows and an empty ledger |
| Seed.OpenedIsCoherent | src/main/java/com/example/parking/config/DataInitializer.java:42-63 | a lot that opens starts coherent, so every later entry, quote and exit keeps it coherent |
| Wiring.AsWrittenAddBreaksMirror | src/main/java/com/example/parking/service/HeapManager.java:19-20 | as wired, a successful add leaves the new FREE slot out of every heap the allocator reads, so those heaps no longer mirror the rows |
| Wiring.AsWrittenAddedSlotNeverAllocated | src/main/java/com/example/parking/controller/AdminSlotController.java:41-44 | as wired, in a lot with no FREE slot of a type, adding one still leaves the next entry of that type "full" |
| Wiring.SyncedAdminKeepsMirror | src/main/java/com/example/parking/controller/AdminSlotController.java:35-86 | when the rebuild replaces the allocator's heaps, every administrative operation keeps them mirroring the rows |
| Wiring.SyncedAddedSlotAllocated | src/main/java/com/example/parking/controller/AdminSlotController.java:41-44 | when synced, the slot just added to a lot with no FREE slot of its type is the one the next entry of that type gets, at any gate |

## Left out

- Concurrency: `synchronized`, the blocking priority queues, the concurrent
  maps, `@Transactional` and optimistic locking. Allocation, release and
  rebuild are atomic steps. The heap's array layout is not modelled.
- The clock: entry and exit times are not kept. The fare quote takes the
  minutes parked as an input, and payment timestamps are not modelled.
- Pricing.Fare: computes `ceil(x / 60.0)` with exact integer ceiling
  division, and the product of hours and rate as an unbounded integer.
  `long` overflow and the rounding of `double` for very large minute counts
  are not modelled.
- Roles.ToLower: folds ASCII letters only. The locale-sensitive Unicode
  case mapping of `toLowerCase()` is not modelled.
- The gate enumeration is not among the sources, so gates are names drawn
  from a configured set. `Gate.valueOf` on another name fails with 500.
- Ids the database generates (slot ids, ticket ids) are parameters that
  must be unused.
- Admin.AddSlot: an id (and version) in the request body is not
  modelled; the add always creates a new row. The slot entity carries a
  `@Version` field, so such a body would either fail (an id without a
  version, or a stale version) or overwrite the row with that id (a
  matching version).
- Workflow.ExitVehicle: the paid amount is a `BigDecimal` in the service
  and an integer here. Fractional payments (such as 39.50) and their change
  are not expressible, and a missing amount, which fails with a
  `NullPointerException` (500), is not modelled.
- Admin.UpdateSlot: every field of the request body (`Admin.SlotRequest`)
  is present. A body without `type` or `status` saves nulls, and a null
  type then makes the rebuild fail with 500 after the row was saved. Null
  fields are not modelled, here or in `Admin.AddSlot`.
- Admin.DeleteSlot: a database refusal to delete a row still referenced by
  a ticket is not modelled.
- The distance list is read from a JSON resource on the classpath. Only
  the fold of the parsed list into a map is modelled.
- Reading the slot list for the administrative rebuild is modelled as the
  set of rows. The order `findAll` returns only affects heap layout.
- The request and response DTOs do not match the fields the service uses.
  The model follows the service: the entry request's vehicle type and the
  exit request's amount.
- HTTP, security configuration, the token decoder and audience check, the
  OAuth user service, the exception handler's response body, and the
  listing endpoint `getAllSlots`.
- The pricing-rule administration endpoint.

## Findings

| source | as written | input that shows it | evidently intended | confidence | as-written member | corrected member |
|---|---|---|---|---|---|---|
| src/main/java/com/example/parking/service/HeapManager.java:19-20,43-45; src/main/java/com/example/parking/controller/AdminSlotController.java:44,62,79; src/main/java/com/example/parking/config/DataInitializer.java:26,34; src/main/java/com/example/parking/service/ParkingService.java:30,41 | The administrative rebuild fills a map private to the heap manager. The allocator reads the separate map built at startup, so admin edits never reach the allocator's heaps. | A lot where every CAR slot is OCCUPIED. An admin adds a CAR slot (200, row saved FREE). The next CAR entry at any gate gets 409 "Parking full". | The rebuild replaces the heaps the allocator reads, as the "keep heaps in sync" comments at the call sites say. | not executed | Wiring.AsWrittenAddedSlotNeverAllocated | Wiring.SyncedAddedSlotAllocated |

=== FILE: admin.dfy ===
/** The administrative slot operations: add, update and delete a row of the
    slot store, each followed, on success, by a full rebuild of the heaps
    from every row. */
module Admin {
  import opened Domain
  import opened SlotDistance
  import opened DistanceTable
  import opened HeapIndex
  import opened Allocator

  /** The editable fields of a slot, as an add or update request carries
      them. */
  datatype SlotRequest = SlotRequest(number: string, floor: Int32, vtype: VehicleType, status: SlotStatus)

  /** The slot store and the index the administrative rebuild writes. */
  datatype Store = Store(dir: Directory, heaps: Index)

  /** The HTTP answer: its status and, for 200, the saved row. */
  datatype Response = Response(status: int, saved: Option<Slot>)

  /** The store's state after a request, and the answer. */
  datatype AdminStep = AdminStep(store: Store, response: Response)

  /** Some row carries this slot number. */
  predicate NumberTaken(dir: Directory, number: string) {
    exists id | id in dir :: dir[id].number == number
  }

  /** Some row other than `id` carries this slot number. */
  predicate NumberTakenByOther(dir: Directory, id: SlotId, number: string) {
    exists other | other in dir && other != id :: dir[other].number == number
  }

  /** Slot numbers are unique across rows (the table's unique constraint). */
  predicate UniqueNumbers(dir: Directory) {
    forall a, b | a in dir && b in dir && a != b :: dir[a].number != dir[b].number
  }

  /** The heaps are the rebuild of the store's rows. */
  ghost predicate Synced(cfg: Config, st: Store) {
    Keyed(st.dir) && st.heaps == Rebuild(cfg, Rows(st.dir))
  }

  /** `addSlot`: a number already in use is refused with 400 and nothing is
      saved or rebuilt; otherwise the row is saved FREE, whatever status the
      request asked for, under the id the store generates, and the heaps
      are rebuilt from every row. */
  function AddSlot(cfg: Config, st: Store, req: SlotRequest, newId: SlotId): (r: AdminStep)
    requires newId !in st.dir
    ensures NumberTaken(st.dir, req.number) <==> r.response.status == 400
    ensures r.response.status == 400 ==> r.store == st && r.response.saved.None?
    ensures r.response.status != 400 ==>
              && r.response == Response(200, Some(Slot(newId, req.number, req.floor, req.vtype, FREE)))
              && r.store.dir == st.dir[newId := r.response.saved.value]
              && r.store.heaps == Rebuild(cfg, Rows(r.store.dir))
  {
    if NumberTaken(st.dir, req.number) then AdminStep(st, Response(400, None))
    else
      var saved := Slot(newId, req.number, req.floor, req.vtype, FREE);
      var dir := st.dir[newId := saved];
      AdminStep(Store(dir, Rebuild(cfg, Rows(dir))), Response(200, Some(saved)))
  }

  /** `updateSlot`: an unknown id is answered 404 and nothing changes; a
      number that another row carries violates the unique constraint on
      save (500) and nothing changes; otherwise number, floor, type and
      status are overwritten, the id is kept, and the heaps are rebuilt. */
  function UpdateSlot(cfg: Config, st: Store, id: SlotId, req: SlotRequest): (r: AdminStep)
    ensures id !in st.dir ==> r == AdminStep(st, Response(404, None))
    ensures id in st.dir && NumberTakenByOther(st.dir, id, req.number) ==> r == AdminStep(st, Response(500, None))
    ensures r.response.status == 200 <==> id in st.dir && !NumberTakenByOther(st.dir, id, req.number)
    ensures r.response.status == 200 ==>
              && r.response.saved == Some(Slot(id, req.number, req.floor, req.vtype, req.status))
              && r.store.dir == st.dir[id := r.response.saved.value]
              && r.store.heaps == Rebuild(cfg, Rows(r.store.dir))
  {
    if id !in st.dir then AdminStep(st, Response(404, None))
    else if NumberTakenByOther(st.dir, id, req.number) then AdminStep(st, Response(500, None))
    else
      var saved := Slot(id, req.number, req.floor, req.vtype, req.status);
      var dir := st.dir[id := saved];
      AdminStep(Store(dir, Rebuild(cfg, Rows(dir))), Response(200, Some(saved)))
  }

  /** `deleteSlot`: an unknown id is answered 404 and nothing changes;
      otherwise the row is removed, the heaps are rebuilt and the answer is
      204. */
  function DeleteSlot(cfg: Config, st: Store, id: SlotId): (r: AdminStep)
    ensures r.response.saved.None?
    ensures r.response.status == 204 <==> id in st.dir
    ensures id !in st.dir ==> r.store == st && r.response.status == 404
    ensures id in st.dir ==> r.store.dir == st.dir - {id} && r.store.heaps == Rebuild(cfg, Rows(r.store.dir))
  {
    if id !in st.dir then AdminStep(st, Response(404, None))
    else
      var dir := st.dir - {id};
      AdminStep(Store(dir, Rebuild(cfg, Rows(dir))), Response(204, None))
  }

  /** Every administrative operation leaves the store synced: a refused one
      changes nothing, a successful one rebuilds from the new rows. */
  lemma AdminOpsKeepSynced(cfg: Config, st: Store, req: SlotRequest, id: SlotId)
    requires Synced(cfg, st)
    ensures id !in st.dir ==> Synced(cfg, AddSlot(cfg, st, req, id).store)
    ensures Synced(cfg, UpdateSlot(cfg, st, id, req).store)
    ensures Synced(cfg, DeleteSlot(cfg, st, id).store)
  {
  }

  /** A synced store's heaps mirror its rows in the allocator's sense. */
  lemma SyncedMirrors(cfg: Config, st: Store)
    requires Synced(cfg, st)
    ensures Mirrors(cfg, Engine(st.dir, st.heaps))
  {
    MirrorsMeansRebuilt(cfg, Engine(st.dir, st.heaps));
  }

  /** No operation ever makes two rows share a number. */
  lemma AdminOpsKeepNumbersUnique(cfg: Config, st: Store, req: SlotRequest, id: SlotId)
    requires UniqueNumbers(st.dir)
    ensures id !in st.dir ==> UniqueNumbers(AddSlot(cfg, st, req, id).store.dir)
    ensures UniqueNumbers(UpdateSlot(cfg, st, id, req).store.dir)
    ensures UniqueNumbers(DeleteSlot(cfg, st, id).store.dir)
  {
  }

  /** Adding a slot and deleting it again restores the rows, and, from a
      synced store, the heaps too. */
  lemma AddThenDelete(cfg: Config, st: Store, req: SlotRequest, id: SlotId)
    requires id !in st.dir && !NumberTaken(st.dir, req.number)
    ensures DeleteSlot(cfg, AddSlot(cfg, st, req, id).store, id).store.dir == st.dir
    ensures Synced(cfg, st) ==> DeleteSlot(cfg, AddSlot(cfg, st, req, id).store, id) == AdminStep(st, Response(204, None))
  {
    var added := AddSlot(cfg, st, req, id).store;
    assert added.dir - {id} == st.dir;
  }

  /** The status in an add request is ignored. */
  lemma AddIgnoresRequestedStatus(cfg: Config, st: Store, req: SlotRequest, id: SlotId, status: SlotStatus)
    requires id !in st.dir
    ensures AddSlot(cfg, st, req, id) == AddSlot(cfg, st, req.(status := status), id)
  {
  }

  /** Sending the same update twice has the effect of sending it once. */
  lemma UpdateIdempotent(cfg: Config, st: Store, id: SlotId, req: SlotRequest)
    requires UpdateSlot(cfg, st, id, req).response.status == 200
    ensures UpdateSlot(cfg, UpdateSlot(cfg, st, id, req).store, id, req) == UpdateSlot(cfg, st, id, req)
  {
    var once := UpdateSlot(cfg, st, id, req);
    assert !NumberTakenByOther(once.store.dir, id, req.number);
    assert once.store.dir[id := once.response.saved.value] == once.store.dir;
  }

  /** A freshly added slot is listed in the heap manager's index at every gate, in the heap of its
      type, with that gate's distance. */
  lemma AddedSlotIsListed(cfg: Config, st: Store, req: SlotRequest, id: SlotId, g: Gate)
    requires Keyed(st.dir) && id !in st.dir && !NumberTaken(st.dir, req.number) && g in cfg.gates
    ensures (g, req.vtype) in AddSlot(cfg, st, req, id).store.heaps
    ensures AddSlot(cfg, st, req, id).store.heaps[(g, req.vtype)]
              [Entry(Slot(id, req.number, req.floor, req.vtype, FREE), DefaultDistance(cfg.dist, g, req.number))] == 1
  {
    var r := AddSlot(cfg, st, req, id);
    var s := Slot(id, req.number, req.floor, req.vtype, FREE);
    RowsOfKeyed(r.store.dir, s);
  }
}

=== FILE: allocator.dfy ===
/** The allocation protocol over the heaps and the slot directory:
    `allocateSlot` (poll the nearest candidate, re-read it, mark it
    OCCUPIED, purge it from every gate) and `releaseSlot` (mark it FREE,
    offer it to every gate). Each call is one atomic step. */
module Allocator {
  import opened Domain
  import opened SlotDistance
  import opened DistanceTable
  import opened HeapIndex

  /** The slot directory (the source of truth) and the heaps the allocator
      reads. */
  datatype Engine = Engine(dir: Directory, idx: Index)

  /** The fresh re-read of a candidate finds its row, and the row is FREE. */
  predicate Fresh(x: Entry, dir: Directory): (b: bool)
    ensures x.slot.id !in dir ==> !b
    // an entry whose copy is current is fresh exactly when the copy says FREE
    ensures x.slot.id in dir && dir[x.slot.id] == x.slot ==> (b <==> x.slot.status == FREE)
    // the stored row decides, whatever status the entry's own copy carries
    ensures x.slot.id in dir ==> (b <==> dir[x.slot.id].status == FREE)
  {
    x.slot.id in dir && dir[x.slot.id].status == FREE
  }

  /** Entry `x` belongs in heap `k`: it carries the directory's current row
      for its slot, that row is FREE and of the heap's type, and the
      distance is the heap's gate's. */
  predicate Indexed(cfg: Config, dir: Directory, k: HeapKey, x: Entry) {
    && x.slot.id in dir && dir[x.slot.id] == x.slot
    && x.slot.status == FREE && x.slot.vtype == k.1
    && x.distance == DefaultDistance(cfg.dist, k.0, x.slot.number)
  }

  /** The heaps mirror the directory: every gate has a heap per type, and
      each heap holds every entry that belongs in it exactly once and
      nothing else. */
  ghost predicate Mirrors(cfg: Config, e: Engine) {
    && Keyed(e.dir)
    && Ready(cfg, e.idx)
    && forall k, x | k in e.idx :: e.idx[k][x] == if Indexed(cfg, e.dir, k, x) then 1 else 0
  }

  /** Mirroring is the state an administrative rebuild produces: the heaps
      equal a rebuild from the directory's rows. */
  lemma MirrorsMeansRebuilt(cfg: Config, e: Engine)
    ensures Mirrors(cfg, e) <==> Keyed(e.dir) && e.idx == Rebuild(cfg, Rows(e.dir))
  {
    if Keyed(e.dir) {
      var want := Rebuild(cfg, Rows(e.dir));
      forall k, x
        ensures Indexed(cfg, e.dir, k, x) == Listed(cfg, Rows(e.dir), k, x)
      {
        RowsOfKeyed(e.dir, x.slot);
      }
      if Mirrors(cfg, e) {
        IndexExt(e.idx, want);
      }
    }
  }

  /** Writing row `s` changes which entries belong only for `s`'s id. */
  lemma IndexedAfterWrite(cfg: Config, dir: Directory, s: Slot, k: HeapKey, y: Entry)
    ensures Indexed(cfg, dir[s.id := s], k, y) ==
              if y.slot.id == s.id
              then y == Entry(s, DefaultDistance(cfg.dist, k.0, s.number)) && s.status == FREE && s.vtype == k.1
              else Indexed(cfg, dir, k, y)
  {
  }

  /** The directory has a FREE row of type `t`. */
  predicate HasFree(dir: Directory, t: VehicleType) {
    exists id | id in dir :: dir[id].status == FREE && dir[id].vtype == t
  }

  /** What `allocateSlot` returns: the slot (saved OCCUPIED) with the entry
      it came from, or null when the heap ran dry. The engine after the
      call is returned in both cases, since polling stale candidates
      changes the heap even when nothing is allocated. */
  datatype AllocOutcome =
    | Allocated(slot: Slot, entry: Entry, engine: Engine)
    | Full(engine: Engine)

  /** Under a mirroring index every heap entry is a FREE row of the heap's
      type, stored exactly as in the directory: an OCCUPIED slot is in no
      heap. */
  lemma MirrorIndexesOnlyFreeRows(cfg: Config, e: Engine, k: HeapKey, x: Entry)
    requires Mirrors(cfg, e) && k in e.idx && x in e.idx[k]
    ensures Fresh(x, e.dir) && e.dir[x.slot.id] == x.slot
    ensures x.slot.status == FREE && x.slot.vtype == k.1
    ensures x.distance == DefaultDistance(cfg.dist, k.0, x.slot.number)
  {
    assert e.idx[k][x] > 0;
  }

  /** Under a mirroring index every FREE row is in each gate's heap for
      its type exactly once, with that gate's distance, and is the only
      entry there for its slot. */
  lemma MirrorIndexesEveryFreeRowOnce(cfg: Config, e: Engine, id: SlotId, g: Gate)
    requires Mirrors(cfg, e) && g in cfg.gates
    requires id in e.dir && e.dir[id].status == FREE
    ensures (g, e.dir[id].vtype) in e.idx
    ensures e.idx[(g, e.dir[id].vtype)][Entry(e.dir[id], DefaultDistance(cfg.dist, g, e.dir[id].number))] == 1
    ensures forall y | y in e.idx[(g, e.dir[id].vtype)] && y.slot.id == id ::
              y == Entry(e.dir[id], DefaultDistance(cfg.dist, g, e.dir[id].number))
  {
    var s := e.dir[id];
    assert s.id == id;
    assert Indexed(cfg, e.dir, (g, s.vtype), Entry(s, DefaultDistance(cfg.dist, g, s.number)));
    forall y | y in e.idx[(g, s.vtype)] && y.slot.id == id
      ensures y == Entry(s, DefaultDistance(cfg.dist, g, s.number))
    {
      MirrorIndexesOnlyFreeRows(cfg, e, (g, s.vtype), y);
    }
  }

  /** A mirroring index holds no entry twice. */
  lemma MirrorListsAtMostOnce(cfg: Config, e: Engine, k: HeapKey, x: Entry)
    requires k in e.idx
    ensures Mirrors(cfg, e) ==> e.idx[k][x] <= 1
  {
  }

  /** Under a mirroring index the heap of (g, t) holds a fresh candidate
      exactly when the directory has a FREE row of type t, and is empty
      otherwise. */
  lemma MirrorFreshCandidate(cfg: Config, e: Engine, g: Gate, t: VehicleType)
    requires Mirrors(cfg, e) && g in cfg.gates
    ensures (g, t) in e.idx
    ensures (exists x | x in e.idx[(g, t)] :: Fresh(x, e.dir)) <==> HasFree(e.dir, t)
    ensures e.idx[(g, t)] != multiset{} ==> HasFree(e.dir, t)
  {
    if e.idx[(g, t)] != multiset{} {
      var x :| x in e.idx[(g, t)];
      MirrorIndexesOnlyFreeRows(cfg, e, (g, t), x);
      assert e.dir[x.slot.id].vtype == t;
    }
    if HasFree(e.dir, t) {
      var id :| id in e.dir && e.dir[id].status == FREE && e.dir[id].vtype == t;
      MirrorIndexesEveryFreeRowOnce(cfg, e, id, g);
    }
  }

  /** The polling loop of `allocateSlot`: takes the nearest entry off the
      heap until one passes the fresh re-read, or the heap is empty. The
      entries polled before the winner failed the re-read, are no farther
      than the winner, and are dropped for good. */
  method PollFresh(dir: Directory, heap: Heap) returns (found: Option<Entry>, rest: Heap)
    ensures found.None? <==> forall y | y in heap :: !Fresh(y, dir)
    ensures found.None? ==> rest == multiset{}
    ensures found.Some? ==> Fresh(found.value, dir) && rest + multiset{found.value} <= heap
    ensures found.Some? ==> forall y | y in heap - (rest + multiset{found.value}) :: !Fresh(y, dir)
    ensures found.Some? ==> forall y | y in heap - (rest + multiset{found.value}) :: Compare(y, found.value) <= 0
    ensures found.Some? ==> forall y | y in rest :: Compare(found.value, y) <= 0
    ensures found.Some? ==> forall y | y in heap && Fresh(y, dir) :: Compare(found.value, y) <= 0
  {
    rest := heap;
    while rest != multiset{}
      invariant rest <= heap
      invariant forall y | y in heap - rest :: !Fresh(y, dir)
      invariant forall y, z | y in heap - rest && z in rest :: Compare(y, z) <= 0
      decreases |rest|
    {
      var x, after := Poll(rest);
      if Fresh(x, dir) {
        PollWinner(dir, heap, rest, x);
        found, rest := Some(x), after;
        return;
      }
      PollStale(dir, heap, rest, x);
      rest := after;
    }
    found := None;
    assert heap - rest == heap;
  }

  /** A stale minimum polled off `rest` keeps the polling loop's
      invariants: everything taken off so far failed the re-read and is no
      farther than anything still queued. */
  lemma PollStale(dir: Directory, heap: Heap, rest: Heap, x: Entry)
    requires rest <= heap && x in rest && !Fresh(x, dir)
    requires forall y | y in rest :: Compare(x, y) <= 0
    requires forall y | y in heap - rest :: !Fresh(y, dir)
    requires forall y, z | y in heap - rest && z in rest :: Compare(y, z) <= 0
    ensures rest - multiset{x} <= heap
    ensures forall y | y in heap - (rest - multiset{x}) :: !Fresh(y, dir)
    ensures forall y, z | y in heap - (rest - multiset{x}) && z in rest - multiset{x} :: Compare(y, z) <= 0
  {
    var after := rest - multiset{x};
    forall y | y in heap - after && y != x
      ensures y in heap - rest
    {
      assert after[y] == rest[y];
    }
  }

  /** A fresh minimum polled off `rest` is the loop's winner: the entries
      taken off before it failed the re-read and are no farther, and no
      fresh entry of the heap is nearer. */
  lemma PollWinner(dir: Directory, heap: Heap, rest: Heap, x: Entry)
    requires rest <= heap && x in rest && Fresh(x, dir)
    requires forall y | y in rest :: Compare(x, y) <= 0
    requires forall y | y in heap - rest :: !Fresh(y, dir)
    requires forall y, z | y in heap - rest && z in rest :: Compare(y, z) <= 0
    ensures (rest - multiset{x}) + multiset{x} <= heap
    ensures forall y | y in heap - ((rest - multiset{x}) + multiset{x}) :: !Fresh(y, dir) && Compare(y, x) <= 0
    ensures forall y | y in heap && Fresh(y, dir) :: Compare(x, y) <= 0
  {
    assert (rest - multiset{x}) + multiset{x} == rest;
    forall y | y in heap && Fresh(y, dir)
      ensures y in rest
    {
      assert (heap - rest)[y] == 0;
    }
  }

  /** `allocateSlot(gate, type)`. The winner of the polling loop has its
      slot saved OCCUPIED and removed from every gate's heap for its type;
      when the loop finds nothing the call returns null, leaving the
      (gate, type) heap drained. */
  method Allocate(cfg: Config, e: Engine, g: Gate, t: VehicleType) returns (r: AllocOutcome)
    requires Ready(cfg, e.idx) && g in cfg.gates
    ensures Ready(cfg, r.engine.idx)
    // null only once every candidate of the heap has failed the re-read
    ensures r.Full? <==> forall x | x in e.idx[(g, t)] :: !Fresh(x, e.dir)
    ensures r.Full? ==> r.engine == Engine(e.dir, e.idx[(g, t) := multiset{}])
    // the slot handed out was FREE on the fresh read and is saved OCCUPIED
    ensures r.Allocated? ==> r.entry in e.idx[(g, t)] && Fresh(r.entry, e.dir)
    ensures r.Allocated? ==> r.slot == r.entry.slot.(status := OCCUPIED)
    ensures r.Allocated? ==> r.engine.dir == e.dir[r.slot.id := r.slot]
    // nearest first
    ensures r.Allocated? ==> forall x | x in e.idx[(g, t)] && Fresh(x, e.dir) :: Compare(r.entry, x) <= 0
    ensures r.Allocated? ==> forall x | x in r.engine.idx[(g, t)] :: Compare(r.entry, x) <= 0
    // gone from every gate's heap for its type; other heaps untouched
    ensures r.Allocated? ==> forall g', x | g' in cfg.gates && x in r.engine.idx[(g', r.slot.vtype)] ::
              x.slot.id != r.slot.id
    ensures r.Allocated? ==> forall k | k in e.idx && k.1 != r.slot.vtype && k != (g, t) ::
              r.engine.idx[k] == e.idx[k]
    ensures r.Allocated? ==> forall k, x | k in e.idx && k.1 == r.slot.vtype && k != (g, t) ::
              r.engine.idx[k][x] == if x.slot.id == r.slot.id then 0 else e.idx[k][x]
    ensures r.Allocated? ==> r.engine.idx[(g, t)] <= e.idx[(g, t)]
    // only the winner's slot and candidates that failed the re-read leave the polled heap
    ensures r.Allocated? ==> forall y: Entry | y.slot.id != r.slot.id && r.engine.idx[(g, t)][y] < e.idx[(g, t)][y] ::
              !Fresh(y, e.dir) && Compare(y, r.entry) <= 0
    // no heap gains an entry
    ensures r.Allocated? ==> forall k, y | k in e.idx :: r.engine.idx[k][y] <= e.idx[k][y]
    // against a mirroring index
    ensures Mirrors(cfg, e) ==> (r.Allocated? <==> HasFree(e.dir, t))
    ensures Mirrors(cfg, e) ==> Mirrors(cfg, r.engine)
    ensures Mirrors(cfg, e) && r.Full? ==> r.engine == e
    ensures Mirrors(cfg, e) && r.Allocated? ==>
              && r.slot.vtype == t
              && forall id | id in e.dir && e.dir[id].status == FREE && e.dir[id].vtype == t ::
                   r.entry.distance <= DefaultDistance(cfg.dist, g, e.dir[id].number)
  {
    var found, rest := PollFresh(e.dir, e.idx[(g, t)]);
    if found.None? {
      r := Full(Engine(e.dir, e.idx[(g, t) := multiset{}]));
      FullOutcome(cfg, e, g, t, r);
      return;
    }
    var x := found.value;
    var taken := x.slot.(status := OCCUPIED);
    var idx' := RemoveFromAllGates(cfg, e.idx[(g, t) := rest], taken.id, taken.vtype);
    r := Allocated(taken, x, Engine(e.dir[taken.id := taken], idx'));
    AllocatedOutcome(cfg, e, g, t, x, rest, r);
    assert x in e.idx[(g, t)] && Fresh(x, e.dir);
  }

  /** The null branch of `Allocate`: with no fresh candidate left the
      heap is drained, and under a mirroring index it was already empty,
      since no row of the type is FREE. */
  lemma FullOutcome(cfg: Config, e: Engine, g: Gate, t: VehicleType, r: AllocOutcome)
    requires Ready(cfg, e.idx) && g in cfg.gates
    requires forall y | y in e.idx[(g, t)] :: !Fresh(y, e.dir)
    requires r == Full(Engine(e.dir, e.idx[(g, t) := multiset{}]))
    ensures Ready(cfg, r.engine.idx)
    ensures Mirrors(cfg, e) ==> !HasFree(e.dir, t) && r.engine == e
  {
    if Mirrors(cfg, e) {
      MirrorFreshCandidate(cfg, e, g, t);
      assert e.idx[(g, t)] == multiset{};
      assert e.idx[(g, t) := multiset{}] == e.idx;
    }
  }

  /** The success branch of `Allocate`: the polled winner `x` is saved
      OCCUPIED and purged from every gate, and the outcome meets every
      promise `Allocate` makes of an allocation. */
  lemma AllocatedOutcome(cfg: Config, e: Engine, g: Gate, t: VehicleType, x: Entry, rest: Heap, r: AllocOutcome)
    requires Ready(cfg, e.idx) && g in cfg.gates
    requires Fresh(x, e.dir) && rest + multiset{x} <= e.idx[(g, t)]
    requires forall y | y in e.idx[(g, t)] - (rest + multiset{x}) :: !Fresh(y, e.dir) && Compare(y, x) <= 0
    requires forall y | y in rest :: Compare(x, y) <= 0
    requires r.Allocated? && r.entry == x && r.slot == x.slot.(status := OCCUPIED)
    requires r.engine.dir == e.dir[r.slot.id := r.slot]
    requires Purged(cfg, e.idx[(g, t) := rest], r.engine.idx, r.slot.id, r.slot.vtype)
    ensures Ready(cfg, r.engine.idx) && r.entry in e.idx[(g, t)]
    ensures forall x | x in r.engine.idx[(g, t)] :: Compare(r.entry, x) <= 0
    ensures forall g', x | g' in cfg.gates && x in r.engine.idx[(g', r.slot.vtype)] :: x.slot.id != r.slot.id
    ensures forall k | k in e.idx && k.1 != r.slot.vtype && k != (g, t) :: r.engine.idx[k] == e.idx[k]
    ensures forall k, x | k in e.idx && k.1 == r.slot.vtype && k != (g, t) ::
              r.engine.idx[k][x] == if x.slot.id == r.slot.id then 0 else e.idx[k][x]
    ensures r.engine.idx[(g, t)] <= e.idx[(g, t)]
    ensures forall y: Entry | y.slot.id != r.slot.id && r.engine.idx[(g, t)][y] < e.idx[(g, t)][y] ::
              !Fresh(y, e.dir) && Compare(y, r.entry) <= 0
    ensures forall k, y | k in e.idx :: r.engine.idx[k][y] <= e.idx[k][y]
    ensures Mirrors(cfg, e) ==> HasFree(e.dir, t) && Mirrors(cfg, r.engine) && r.slot.vtype == t
    ensures Mirrors(cfg, e) ==>
              forall id | id in e.dir && e.dir[id].status == FREE && e.dir[id].vtype == t ::
                r.entry.distance <= DefaultDistance(cfg.dist, g, e.dir[id].number)
  {
    AllocationStep(cfg, e, g, t, x, rest, r.engine.idx);
    AllocationLosses(cfg, e, g, t, x, rest, r.engine.idx);
    if Mirrors(cfg, e) {
      MirrorsPickNearest(cfg, e, g, t, x, rest);
      AllocationKeepsMirror(cfg, e, g, t, x, rest, r.engine.idx);
      assert r.engine == Engine(e.dir[x.slot.id := x.slot.(status := OCCUPIED)], r.engine.idx);
    }
  }

  /** What a successful allocation takes out of the index: no heap gains
      an entry, and the polled heap loses, besides `x`'s slot, only entries
      that failed the re-read and were no farther than `x`. */
  lemma AllocationLosses(cfg: Config, e: Engine, g: Gate, t: VehicleType, x: Entry, rest: Heap, idx': Index)
    requires Ready(cfg, e.idx) && g in cfg.gates
    requires rest + multiset{x} <= e.idx[(g, t)]
    requires forall y | y in e.idx[(g, t)] - (rest + multiset{x}) :: !Fresh(y, e.dir) && Compare(y, x) <= 0
    requires Purged(cfg, e.idx[(g, t) := rest], idx', x.slot.id, x.slot.vtype)
    ensures forall y: Entry | y.slot.id != x.slot.id && idx'[(g, t)][y] < e.idx[(g, t)][y] ::
              !Fresh(y, e.dir) && Compare(y, x) <= 0
    ensures forall k, y | k in e.idx :: idx'[k][y] <= e.idx[k][y]
  {
    var idx0 := e.idx[(g, t) := rest];
    assert idx0[(g, t)] == rest;
    forall y: Entry | y.slot.id != x.slot.id && idx'[(g, t)][y] < e.idx[(g, t)][y]
      ensures !Fresh(y, e.dir) && Compare(y, x) <= 0
    {
      assert idx'[(g, t)][y] == rest[y];
      assert y != x;
      assert (rest + multiset{x})[y] == rest[y];
      assert y in e.idx[(g, t)] - (rest + multiset{x});
    }
    forall k, y | k in e.idx
      ensures idx'[k][y] <= e.idx[k][y]
    {
      assert k in idx0;
      if k.0 in cfg.gates && k.1 == x.slot.vtype {
        assert idx'[k][y] == if y.slot.id == x.slot.id then 0 else idx0[k][y];
      } else {
        assert idx'[k] == idx0[k];
      }
      if k == (g, t) {
        assert rest[y] <= e.idx[(g, t)][y];
      }
    }
  }

  /** The index side of a successful allocation: `x` was polled from the
      (gate, type) heap leaving `rest`, and `idx'` is the index with that
      heap replaced by `rest` and `x`'s slot purged. */
  lemma AllocationStep(cfg: Config, e: Engine, g: Gate, t: VehicleType, x: Entry, rest: Heap, idx': Index)
    requires Ready(cfg, e.idx) && g in cfg.gates
    requires rest + multiset{x} <= e.idx[(g, t)]
    requires forall y | y in rest :: Compare(x, y) <= 0
    requires Purged(cfg, e.idx[(g, t) := rest], idx', x.slot.id, x.slot.vtype)
    ensures Ready(cfg, idx') && x in e.idx[(g, t)]
    ensures forall y | y in idx'[(g, t)] :: Compare(x, y) <= 0
    ensures forall g', y | g' in cfg.gates && y in idx'[(g', x.slot.vtype)] :: y.slot.id != x.slot.id
    ensures forall k | k in e.idx && k.1 != x.slot.vtype && k != (g, t) :: idx'[k] == e.idx[k]
    ensures forall k, y | k in e.idx && k.1 == x.slot.vtype && k != (g, t) ::
              idx'[k][y] == if y.slot.id == x.slot.id then 0 else e.idx[k][y]
    ensures idx'[(g, t)] <= e.idx[(g, t)]
  {
    var idx0 := e.idx[(g, t) := rest];
    assert idx0[(g, t)] == rest;
    forall y
      ensures idx'[(g, t)][y] <= rest[y]
    {
      if t == x.slot.vtype {
        assert idx'[(g, t)][y] == if y.slot.id == x.slot.id then 0 else idx0[(g, t)][y];
      } else {
        assert idx'[(g, t)] == idx0[(g, t)];
      }
    }
    assert rest <= e.idx[(g, t)];
  }

  /** The first poll against a mirroring index: it passes the re-read, so
      nothing was dropped before it; it is of the heap's type; and it is
      no farther than any FREE row of that type. */
  lemma MirrorsPickNearest(cfg: Config, e: Engine, g: Gate, t: VehicleType, x: Entry, rest: Heap)
    requires Mirrors(cfg, e) && g in cfg.gates
    requires rest + multiset{x} <= e.idx[(g, t)]
    requires forall y | y in e.idx[(g, t)] - (rest + multiset{x}) :: !Fresh(y, e.dir)
    requires forall y | y in rest :: Compare(x, y) <= 0
    ensures rest + multiset{x} == e.idx[(g, t)]
    ensures x.slot.vtype == t && HasFree(e.dir, t)
    ensures forall id | id in e.dir && e.dir[id].status == FREE && e.dir[id].vtype == t ::
              x.distance <= DefaultDistance(cfg.dist, g, e.dir[id].number)
  {
    var heap := rest + multiset{x};
    forall y
      ensures heap[y] == e.idx[(g, t)][y]
    {
      if y in e.idx[(g, t)] {
        MirrorIndexesOnlyFreeRows(cfg, e, (g, t), y);
        assert (e.idx[(g, t)] - heap)[y] == 0;
      }
    }
    assert heap == e.idx[(g, t)];
    MirrorIndexesOnlyFreeRows(cfg, e, (g, t), x);
    assert e.dir[x.slot.id].vtype == t;
    forall id | id in e.dir && e.dir[id].status == FREE && e.dir[id].vtype == t
      ensures x.distance <= DefaultDistance(cfg.dist, g, e.dir[id].number)
    {
      MirrorIndexesEveryFreeRowOnce(cfg, e, id, g);
      var y := Entry(e.dir[id], DefaultDistance(cfg.dist, g, e.dir[id].number));
      assert y in heap;
    }
  }

  /** The multiplicity bookkeeping of one allocation step: against a
      mirroring index, popping the fresh entry and purging its slot leaves
      exactly the index of the directory with that slot OCCUPIED. */
  lemma AllocationKeepsMirror(cfg: Config, e: Engine, g: Gate, t: VehicleType, x: Entry, rest: Heap, idx': Index)
    requires Mirrors(cfg, e) && g in cfg.gates && rest + multiset{x} == e.idx[(g, t)]
    requires Purged(cfg, e.idx[(g, t) := rest], idx', x.slot.id, x.slot.vtype)
    ensures Mirrors(cfg, Engine(e.dir[x.slot.id := x.slot.(status := OCCUPIED)], idx'))
  {
    MirrorIndexesOnlyFreeRows(cfg, e, (g, t), x);
    forall k, y | k in idx'
      ensures idx'[k][y] == if Indexed(cfg, e.dir[x.slot.id := x.slot.(status := OCCUPIED)], k, y) then 1 else 0
    {
      AllocationPoint(cfg, e, g, t, x, rest, idx', k, y);
    }
  }

  /** One (heap, entry) pair of `AllocationKeepsMirror`, from that pair's
      old multiplicity alone. */
  lemma AllocationPoint(cfg: Config, e: Engine, g: Gate, t: VehicleType, x: Entry, rest: Heap, idx': Index,
                        k: HeapKey, y: Entry)
    requires Ready(cfg, e.idx) && g in cfg.gates && k in e.idx
    requires Indexed(cfg, e.dir, (g, t), x) && rest + multiset{x} == e.idx[(g, t)]
    requires Purged(cfg, e.idx[(g, t) := rest], idx', x.slot.id, x.slot.vtype)
    requires e.idx[k][y] == if Indexed(cfg, e.dir, k, y) then 1 else 0
    ensures idx'[k][y] == if Indexed(cfg, e.dir[x.slot.id := x.slot.(status := OCCUPIED)], k, y) then 1 else 0
  {
    IndexedAfterWrite(cfg, e.dir, x.slot.(status := OCCUPIED), k, y);
    if y.slot.id != x.slot.id {
      assert y != x;
    }
  }

  /** `releaseSlot(ticket)`: the ticket's slot is saved FREE and one entry
      for it is offered to the heap of its type at every gate, with that
      gate's distance or `Integer.MAX_VALUE`. Neither the slot's previous
      status nor entries already present are checked. */
  function Release(cfg: Config, e: Engine, slot: Slot): (r: Engine)
    requires forall g | g in cfg.gates :: (g, slot.vtype) in e.idx
    ensures r.dir == e.dir[slot.id := slot.(status := FREE)]
    ensures r.idx.Keys == e.idx.Keys
    ensures forall k, x | k in e.idx ::
              r.idx[k][x] == e.idx[k][x] +
                if k.0 in cfg.gates && k.1 == slot.vtype &&
                   x == Entry(slot.(status := FREE), DefaultDistance(cfg.dist, k.0, slot.number))
                then 1 else 0
  {
    var freed := slot.(status := FREE);
    Engine(e.dir[slot.id := freed],
           map k | k in e.idx ::
             if k.0 in cfg.gates && k.1 == slot.vtype
             then e.idx[k] + multiset{Entry(freed, DefaultDistance(cfg.dist, k.0, slot.number))}
             else e.idx[k])
  }

  /** Releasing a slot that is not FREE in the directory (OCCUPIED, or
      without a row) keeps the index mirroring the directory. */
  lemma ReleaseKeepsMirror(cfg: Config, e: Engine, slot: Slot)
    requires Mirrors(cfg, e)
    requires slot.id in e.dir ==> e.dir[slot.id].status == OCCUPIED
    ensures Mirrors(cfg, Release(cfg, e, slot))
  {
    var r := Release(cfg, e, slot);
    assert Ready(cfg, r.idx);
    forall id | id in r.dir
      ensures r.dir[id].id == id
    {
    }
    forall k, y | k in r.idx
      ensures r.idx[k][y] == if Indexed(cfg, r.dir, k, y) then 1 else 0
    {
      ReleasePoint(cfg, e, slot, k, y);
    }
  }

  /** One (heap, entry) pair of `ReleaseKeepsMirror`, from that pair's old
      multiplicity alone. */
  lemma ReleasePoint(cfg: Config, e: Engine, slot: Slot, k: HeapKey, y: Entry)
    requires Ready(cfg, e.idx) && k in e.idx
    requires slot.id in e.dir ==> e.dir[slot.id].status == OCCUPIED
    requires e.idx[k][y] == if Indexed(cfg, e.dir, k, y) then 1 else 0
    ensures Release(cfg, e, slot).idx[k][y] == if Indexed(cfg, Release(cfg, e, slot).dir, k, y) then 1 else 0
  {
    IndexedAfterWrite(cfg, e.dir, slot.(status := FREE), k, y);
  }

  /** Release undoes an allocation: from a mirroring engine, saving a FREE
      slot OCCUPIED (with the heaps kept mirroring, as `Allocate` does) and
      then releasing it gives back the original directory and heaps. */
  lemma ReleaseUndoesAllocation(cfg: Config, e: Engine, after: Engine, s: Slot)
    requires Mirrors(cfg, e) && Mirrors(cfg, after)
    requires s.id in e.dir && e.dir[s.id] == s && s.status == FREE
    requires after.dir == e.dir[s.id := s.(status := OCCUPIED)]
    ensures Release(cfg, after, s.(status := OCCUPIED)) == e
  {
    var back := Release(cfg, after, s.(status := OCCUPIED));
    ReleaseKeepsMirror(cfg, after, s.(status := OCCUPIED));
    assert back.dir == e.dir;
    MirrorsMeansRebuilt(cfg, back);
    MirrorsMeansRebuilt(cfg, e);
  }

  /** Releasing a slot that is already FREE and indexed lists it twice in
      every gate's heap for its type: the release path does not check. */
  lemma ReleaseOfFreeSlotDuplicates(cfg: Config, e: Engine, id: SlotId, g: Gate)
    requires Mirrors(cfg, e) && g in cfg.gates
    requires id in e.dir && e.dir[id].status == FREE
    ensures Release(cfg, e, e.dir[id]).idx[(g, e.dir[id].vtype)]
              [Entry(e.dir[id], DefaultDistance(cfg.dist, g, e.dir[id].number))] == 2
    ensures !Mirrors(cfg, Release(cfg, e, e.dir[id]))
  {
    MirrorIndexesEveryFreeRowOnce(cfg, e, id, g);
    var s := e.dir[id];
    MirrorListsAtMostOnce(cfg, Release(cfg, e, s), (g, s.vtype), Entry(s, DefaultDistance(cfg.dist, g, s.number)));
  }
}

=== FILE: distance_table.dfy ===
/** The gate-to-slot distance table: how it is folded from its entry list,
    and its two lookup forms (strict, and defaulting to "unreachable"). */
module DistanceTable {
  import opened Domain

  /** Key of the pair (gate, slot number): `gate + "_" + slotNumber`. */
  function DistanceKey(gate: Gate, slotNumber: string): string {
    gate + "_" + slotNumber
  }

  type DistanceMap = map<string, Int32>

  /** One record of the distance list. */
  datatype DistanceEntry = DistanceEntry(gateNumber: string, slotNumber: string, distance: Int32)

  function EntryKey(e: DistanceEntry): string {
    DistanceKey(e.gateNumber, e.slotNumber)
  }

  /** The (key, distance) pairs the loop puts, in list order. */
  function KeyedPairs(entries: seq<DistanceEntry>): (ps: seq<(string, Int32)>)
    ensures |ps| == |entries|
  {
    seq(|entries|, i requires 0 <= i < |entries| => (EntryKey(entries[i]), entries[i].distance))
  }

  /** Puts the pairs into an empty map in order; a later put overwrites an
      earlier one with the same key. */
  function PutAll<K, V>(ps: seq<(K, V)>): map<K, V> {
    if |ps| == 0 then map[]
    else PutAll(ps[..|ps| - 1])[ps[|ps| - 1].0 := ps[|ps| - 1].1]
  }

  function KeysOf<K, V>(ps: seq<(K, V)>): set<K> {
    set i | 0 <= i < |ps| :: ps[i].0
  }

  /** No later pair carries the same key as pair `i`. */
  predicate LastWithKey<K(==), V>(ps: seq<(K, V)>, i: int)
    requires 0 <= i < |ps|
  {
    forall j | i < j < |ps| :: ps[j].0 != ps[i].0
  }

  lemma {:induction false} PutAllKeys<K, V>(ps: seq<(K, V)>)
    ensures PutAll(ps).Keys == KeysOf(ps)
  {
    if |ps| > 0 {
      var init := ps[..|ps| - 1];
      var last := ps[|ps| - 1];
      PutAllKeys(init);
      forall k | k in KeysOf(ps)
        ensures k in KeysOf(init) + {last.0}
      {
        var i :| 0 <= i < |ps| && ps[i].0 == k;
        if i < |init| {
          assert init[i] == ps[i];
        }
      }
      forall k | k in KeysOf(init)
        ensures k in KeysOf(ps)
      {
        var i :| 0 <= i < |init| && init[i].0 == k;
        assert ps[i] == init[i];
      }
    }
  }

  lemma {:induction false} PutAllLastWins<K, V>(ps: seq<(K, V)>, i: int)
    requires 0 <= i < |ps| && LastWithKey(ps, i)
    ensures ps[i].0 in PutAll(ps) && PutAll(ps)[ps[i].0] == ps[i].1
  {
    var init := ps[..|ps| - 1];
    if i < |init| {
      assert init[i] == ps[i];
      forall j | i < j < |init|
        ensures init[j].0 != init[i].0
      {
        assert init[j] == ps[j];
      }
      PutAllLastWins(init, i);
    }
  }

  lemma {:induction false} PutAllSize<K, V>(ps: seq<(K, V)>)
    ensures |PutAll(ps)| <= |ps|
  {
    if |ps| > 0 {
      PutAllSize(ps[..|ps| - 1]);
    }
  }

  /** The keys the pairs carry are the keys the entries produce. */
  lemma KeyedPairsKeys(entries: seq<DistanceEntry>)
    ensures KeysOf(KeyedPairs(entries)) == set i | 0 <= i < |entries| :: EntryKey(entries[i])
  {
    var ps := KeyedPairs(entries);
    forall k | k in KeysOf(ps)
      ensures k in set i | 0 <= i < |entries| :: EntryKey(entries[i])
    {
      var i :| 0 <= i < |ps| && ps[i].0 == k;
      assert ps[i].0 == EntryKey(entries[i]);
    }
    forall k | k in set i | 0 <= i < |entries| :: EntryKey(entries[i])
      ensures k in KeysOf(ps)
    {
      var i :| 0 <= i < |entries| && EntryKey(entries[i]) == k;
      assert ps[i].0 == k;
    }
  }

  /** The loop that turns the distance list into the lookup map: its keys
      are exactly the keys the entries produce, and duplicates collapse. */
  function BuildDistanceMap(entries: seq<DistanceEntry>): (m: DistanceMap)
    ensures m.Keys == set i | 0 <= i < |entries| :: EntryKey(entries[i])
    ensures |m| <= |entries|
  {
    var ps := KeyedPairs(entries);
    PutAllKeys(ps);
    PutAllSize(ps);
    KeyedPairsKeys(entries);
    PutAll(ps)
  }

  /** Each key maps to the distance of the last entry producing it. */
  lemma BuildDistanceMapSpec(entries: seq<DistanceEntry>)
    ensures forall i | 0 <= i < |entries| ::
              (forall j | i < j < |entries| :: EntryKey(entries[j]) != EntryKey(entries[i])) ==>
              BuildDistanceMap(entries)[EntryKey(entries[i])] == entries[i].distance
  {
    var ps := KeyedPairs(entries);
    forall i | 0 <= i < |entries| && (forall j | i < j < |entries| :: EntryKey(entries[j]) != EntryKey(entries[i]))
      ensures BuildDistanceMap(entries)[EntryKey(entries[i])] == entries[i].distance
    {
      assert LastWithKey(ps, i);
      PutAllLastWins(ps, i);
    }
  }

  /** Every listed (gate, slot number) pair passes the strict lookup of the
      built map, and the last entry for a pair is the distance both lookups
      report. */
  lemma ListedPairIsFound(entries: seq<DistanceEntry>, i: int)
    requires 0 <= i < |entries|
    ensures var r := StrictDistance(BuildDistanceMap(entries), entries[i].gateNumber, entries[i].slotNumber);
            && r.Ok?
            && ((forall j | i < j < |entries| :: EntryKey(entries[j]) != EntryKey(entries[i])) ==>
                  r.value == entries[i].distance &&
                  DefaultDistance(BuildDistanceMap(entries), entries[i].gateNumber, entries[i].slotNumber) == entries[i].distance)
  {
    var m := BuildDistanceMap(entries);
    assert EntryKey(entries[i]) in m;
    BuildDistanceMapSpec(entries);
  }

  /** `getOrDefault(key, Integer.MAX_VALUE)`: a missing pair reads as
      "unreachable", the largest distance an `int` holds. */
  function DefaultDistance(dist: DistanceMap, gate: Gate, slotNumber: string): (d: Int32)
    ensures DistanceKey(gate, slotNumber) in dist ==> d == dist[DistanceKey(gate, slotNumber)]
    // an unlisted pair ranks after every listed one
    ensures DistanceKey(gate, slotNumber) !in dist ==> d == INT_MAX && forall k | k in dist :: dist[k] <= d
  {
    var key := DistanceKey(gate, slotNumber);
    if key in dist then dist[key] else INT_MAX
  }

  /** The startup build's failure: no distance for (gate, slot number). */
  datatype ConfigError = MissingDistance(gate: Gate, slotNumber: string)

  /** The strict lookup: a missing pair raises an error, a present one
      yields its mapped value, so the default branch is never taken. */
  function StrictDistance(dist: DistanceMap, gate: Gate, slotNumber: string): (r: Result<Int32, ConfigError>)
    ensures r.Ok? <==> DistanceKey(gate, slotNumber) in dist
    ensures r.Ok? ==> r.value == DefaultDistance(dist, gate, slotNumber)
    ensures r.Err? ==> r.error == MissingDistance(gate, slotNumber)
  {
    var key := DistanceKey(gate, slotNumber);
    if key !in dist then Err(MissingDistance(gate, slotNumber))
    else Ok(DefaultDistance(dist, gate, slotNumber))
  }
}

=== FILE: domain.dfy ===
/** Shared vocabulary of the parking engine: option/result wrappers, Java's
    32-bit `int`, the slot record and the enumerations it uses. */
module Domain {

  datatype Option<+T> = None | Some(value: T)

  datatype Result<+T, +E> = Ok(value: T) | Err(error: E)

  /** Bounds of Java's `int`. */
  const INT_MIN: int := -0x8000_0000
  const INT_MAX: int := 0x7fff_ffff

  type Int32 = x: int | INT_MIN <= x <= INT_MAX

  /** A gate is identified by the name of its enum constant (`gate.name()`).
      The set of gates is fixed for the life of the process and is passed
      around as part of a `Config`. */
  type Gate = string

  datatype VehicleType = BIKE | CAR | TRUCK

  /** `VehicleType.values()`. */
  const AllTypes: set<VehicleType> := {BIKE, CAR, TRUCK}

  lemma AllTypesComplete(t: VehicleType)
    ensures t in AllTypes
  {
  }

  datatype SlotStatus = FREE | OCCUPIED

  /** Generated primary key of a slot row (`Long id`). */
  type SlotId = int

  /** A row of the slot directory. */
  datatype Slot = Slot(id: SlotId, number: string, floor: Int32, vtype: VehicleType, status: SlotStatus)

  /** The slot directory: the store's rows, looked up by id. */
  type Directory = map<SlotId, Slot>

  /** Every row is stored under its own id. */
  ghost predicate Keyed(dir: Directory) {
    forall id | id in dir :: dir[id].id == id
  }

  /** What `findAll()` returns, as a collection: every row once. */
  function Rows(dir: Directory): set<Slot> {
    dir.Values
  }

  lemma RowsOfKeyed(dir: Directory, s: Slot)
    requires Keyed(dir)
    ensures s in Rows(dir) <==> s.id in dir && dir[s.id] == s
  {
    if s.id in dir && dir[s.id] == s {
      assert dir[s.id] in dir.Values;
    } else {
      forall id | id in dir
        ensures dir[id] != s
      {
        assert dir[id].id == id;
      }
      assert s !in dir.Values;
    }
  }

  /** The error a request ends with: the HTTP status the exception handler
      answers with, and which check failed. */
  datatype Reason =
    | VehicleAlreadyInside   // the plate already holds an ACTIVE ticket
    | UnknownGate            // the gate name is not a constant of the gate enumeration
    | ParkingFull            // no fresh candidate in the (gate, type) heap
    | TicketNotFound
    | TicketNotActive
    | NoPendingPayment       // the ticket has no payment row
    | InsufficientPayment    // the amount paid is below the amount due
    | NoPricingRule          // the vehicle type has no pricing rule
    | NonUniqueResult        // a single-row lookup found several rows
    | SlotMissing            // the ticket's slot row no longer exists

  datatype Failure = Failure(status: int, reason: Reason)
}

=== FILE: heap_index.dfy ===
/** The per-(gate, vehicle type) heaps of free slots: how they are built
    from the slot rows (the administrative rebuild and the strict startup
    build), and the two mutations the allocator uses, `poll` and
    `removeIf`. A heap is a bag of entries; only its minimum is ever
    inspected, so the array layout of the priority queue is not modelled. */
module HeapIndex {
  import opened Domain
  import opened SlotDistance
  import opened DistanceTable

  type HeapKey = (Gate, VehicleType)
  type Heap = multiset<Entry>
  type Index = map<HeapKey, Heap>

  /** What is fixed for the life of the process: the gate enumeration and
      the distance table. */
  datatype Config = Config(gates: set<Gate>, dist: DistanceMap)

  /** One heap per (gate, vehicle type). */
  function HeapKeys(gates: set<Gate>): set<HeapKey> {
    set g, t | g in gates && t in AllTypes :: (g, t)
  }

  lemma InHeapKeys(gates: set<Gate>, k: HeapKey)
    ensures k in HeapKeys(gates) <==> k.0 in gates
  {
    if k.0 in gates {
      AllTypesComplete(k.1);
      assert k == (k.0, k.1);
    }
  }

  /** Every (gate, type) pair has its heap and there is no other heap. */
  ghost predicate Ready(cfg: Config, idx: Index) {
    forall k :: k in idx <==> k.0 in cfg.gates
  }

  /** The entry a rebuild puts into heap `k` for `slot` exists exactly when
      the slot is FREE and of the heap's type, and carries the defaulting
      distance from the heap's gate. */
  predicate Listed(cfg: Config, slots: set<Slot>, k: HeapKey, x: Entry) {
    && x.slot in slots
    && x.slot.status == FREE
    && x.slot.vtype == k.1
    && x.distance == DefaultDistance(cfg.dist, k.0, x.slot.number)
  }

  /** The heap of one (gate, type): one entry per FREE slot of that type. */
  function BuildHeap(cfg: Config, slots: set<Slot>, k: HeapKey): Heap {
    multiset(set s | s in slots && s.vtype == k.1 && s.status == FREE ::
               Entry(s, DefaultDistance(cfg.dist, k.0, s.number)))
  }

  /** The administrative rebuild. It does not read the previous index, so
      whatever the heaps held before is discarded. Every gate gets a heap
      for every type, holding exactly one entry for each FREE slot of that
      type (with the gate's distance, or `Integer.MAX_VALUE` when the table
      has none) and nothing else. */
  function Rebuild(cfg: Config, slots: set<Slot>): (idx: Index)
    ensures Ready(cfg, idx)
    ensures forall k, x | k in idx :: idx[k][x] == if Listed(cfg, slots, k, x) then 1 else 0
  {
    var idx := map k | k in HeapKeys(cfg.gates) :: BuildHeap(cfg, slots, k);
    forall k | true
      ensures k in idx <==> k.0 in cfg.gates
    {
      InHeapKeys(cfg.gates, k);
    }
    idx
  }

  /** Writing one row changes what a rebuild lists only for that row's id. */
  lemma ListedAfterWrite(cfg: Config, dir: Directory, s: Slot, k: HeapKey, y: Entry)
    requires Keyed(dir)
    ensures Keyed(dir[s.id := s])
    ensures Listed(cfg, Rows(dir[s.id := s]), k, y) ==
              if y.slot.id == s.id
              then y.slot == s && s.status == FREE && s.vtype == k.1 &&
                   y.distance == DefaultDistance(cfg.dist, k.0, s.number)
              else Listed(cfg, Rows(dir), k, y)
  {
    RowsOfKeyed(dir[s.id := s], y.slot);
    RowsOfKeyed(dir, y.slot);
  }

  /** Deleting one row removes exactly that row's entries from what a
      rebuild lists. */
  lemma ListedAfterRemove(cfg: Config, dir: Directory, id: SlotId, k: HeapKey, y: Entry)
    requires Keyed(dir)
    ensures Keyed(dir - {id})
    ensures Listed(cfg, Rows(dir - {id}), k, y) == (y.slot.id != id && Listed(cfg, Rows(dir), k, y))
  {
    RowsOfKeyed(dir - {id}, y.slot);
    RowsOfKeyed(dir, y.slot);
  }

  /** Two indexes with the same keys and the same multiplicities are equal. */
  lemma IndexExt(a: Index, b: Index)
    requires a.Keys == b.Keys
    requires forall k, y | k in a :: a[k][y] == b[k][y]
    ensures a == b
  {
    forall k | k in a
      ensures a[k] == b[k]
    {
      assert forall y :: a[k][y] == b[k][y];
    }
  }

  /** The slots a heap holds entries for. */
  function SlotsIn(h: Heap): set<Slot> {
    set x | x in h :: x.slot
  }

  /** After a rebuild, every gate's heap for a type holds entries for the
      same slots, namely the FREE slots of that type; only the distances
      differ from gate to gate. */
  lemma RebuildSameSlotsAtEveryGate(cfg: Config, slots: set<Slot>, g: Gate, t: VehicleType)
    requires g in cfg.gates
    ensures (g, t) in Rebuild(cfg, slots)
    ensures SlotsIn(Rebuild(cfg, slots)[(g, t)]) == set s | s in slots && s.status == FREE && s.vtype == t
  {
    var h := Rebuild(cfg, slots)[(g, t)];
    forall s | s in slots && s.status == FREE && s.vtype == t
      ensures s in SlotsIn(h)
    {
      var x := Entry(s, DefaultDistance(cfg.dist, g, s.number));
      assert Listed(cfg, slots, (g, t), x);
      assert h[x] == 1;
    }
    forall s | s in SlotsIn(h)
      ensures s in slots && s.status == FREE && s.vtype == t
    {
      var x :| x in h && x.slot == s;
      assert h[x] == 1;
    }
  }

  /** Rows that are not FREE play no part in a rebuild: two slot lists with
      the same FREE rows give the same index. */
  lemma RebuildReadsOnlyFreeRows(cfg: Config, a: set<Slot>, b: set<Slot>)
    requires forall s | s in a && s.status == FREE :: s in b
    requires forall s | s in b && s.status == FREE :: s in a
    ensures Rebuild(cfg, a) == Rebuild(cfg, b)
  {
    var ra, rb := Rebuild(cfg, a), Rebuild(cfg, b);
    forall k | k in ra
      ensures ra[k] == rb[k]
    {
      forall x
        ensures ra[k][x] == rb[k][x]
      {
        assert Listed(cfg, a, k, x) == Listed(cfg, b, k, x);
      }
    }
  }

  /** Every FREE slot has a distance from every gate. */
  predicate DistancesComplete(cfg: Config, slots: set<Slot>) {
    forall g, s | g in cfg.gates && s in slots && s.status == FREE :: DistanceKey(g, s.number) in cfg.dist
  }

  /** Every (gate, FREE slot) pair whose distance is missing from the
      table. */
  function MissingPairs(cfg: Config, slots: set<Slot>): set<ConfigError> {
    set g, s | g in cfg.gates && s in slots && s.status == FREE && DistanceKey(g, s.number) !in cfg.dist ::
      MissingDistance(g, s.number)
  }

  lemma MissingPairsNonEmpty(cfg: Config, slots: set<Slot>)
    requires !DistancesComplete(cfg, slots)
    ensures MissingPairs(cfg, slots) != {}
  {
    var g, s :| g in cfg.gates && s in slots && s.status == FREE && DistanceKey(g, s.number) !in cfg.dist;
    assert MissingDistance(g, s.number) in MissingPairs(cfg, slots);
  }

  /** The heap of one (gate, type) as the startup build fills it, with the
      strict lookup. */
  function StrictHeap(cfg: Config, slots: set<Slot>, k: HeapKey): Heap
    requires k.0 in cfg.gates && DistancesComplete(cfg, slots)
  {
    multiset(set s | s in slots && s.vtype == k.1 && s.status == FREE ::
               Entry(s, StrictDistance(cfg.dist, k.0, s.number).value))
  }

  /** The startup build, which uses the strict lookup: it is aborted by the
      first missing distance it meets. The error reports every missing
      pair, since which of them is met first depends on the enumeration
      order of gates and rows. */
  function StartupBuild(cfg: Config, slots: set<Slot>): (r: Result<Index, set<ConfigError>>)
    ensures r.Err? <==> exists g, s | g in cfg.gates && s in slots && s.status == FREE ::
                          StrictDistance(cfg.dist, g, s.number).Err?
    ensures r.Err? ==> r.error != {}
    ensures r.Err? ==> forall e | e in r.error ::
              && e.gate in cfg.gates
              && DistanceKey(e.gate, e.slotNumber) !in cfg.dist
              && exists s | s in slots :: s.status == FREE && s.number == e.slotNumber
    ensures r.Ok? ==> r.value == Rebuild(cfg, slots)
  {
    if !DistancesComplete(cfg, slots) then
      MissingPairsNonEmpty(cfg, slots);
      Err(MissingPairs(cfg, slots))
    else
      var idx := map k | k in HeapKeys(cfg.gates) && k.0 in cfg.gates :: StrictHeap(cfg, slots, k);
      assert idx == Rebuild(cfg, slots) by {
        forall k | k in HeapKeys(cfg.gates)
          ensures k in idx && idx[k] == BuildHeap(cfg, slots, k)
        {
          InHeapKeys(cfg.gates, k);
          StrictHeapIsBuildHeap(cfg, slots, k);
        }
      }
      Ok(idx)
  }

  lemma StrictHeapIsBuildHeap(cfg: Config, slots: set<Slot>, k: HeapKey)
    requires k.0 in cfg.gates && DistancesComplete(cfg, slots)
    ensures StrictHeap(cfg, slots, k) == BuildHeap(cfg, slots, k)
  {
    var a := set s | s in slots && s.vtype == k.1 && s.status == FREE ::
               Entry(s, StrictDistance(cfg.dist, k.0, s.number).value);
    var b := set s | s in slots && s.vtype == k.1 && s.status == FREE ::
               Entry(s, DefaultDistance(cfg.dist, k.0, s.number));
    assert a == b;
  }

  /** `poll()`: removes and returns some minimal entry. Among entries at
      the same distance any one may come out. */
  method Poll(heap: Heap) returns (x: Entry, rest: Heap)
    requires heap != multiset{}
    ensures x in heap && forall y | y in heap :: Compare(x, y) <= 0
    ensures rest == heap - multiset{x}
  {
    MinExists(heap);
    x :| x in heap && IsMin(x, heap);
    rest := heap - multiset{x};
  }

  /** `removeIf(entry -> entry.slot.id == id)` on one heap: every entry for
      the slot goes, every other entry stays with its multiplicity. */
  method RemoveSlot(heap: Heap, id: SlotId) returns (r: Heap)
    ensures forall x :: r[x] == if x.slot.id == id then 0 else heap[x]
  {
    r := heap;
    var todo := set x | x in heap;
    while todo != {}
      invariant forall x :: r[x] == if x.slot.id == id && x !in todo then 0 else heap[x]
      decreases |todo|
    {
      var x :| x in todo;
      if x.slot.id == id {
        r := r[x := 0];
      }
      todo := todo - {x};
    }
  }

  /** `after` is `before` with every entry for slot `id` gone from the
      heap of type `t` at every gate, and nothing else changed. */
  ghost predicate Purged(cfg: Config, before: Index, after: Index, id: SlotId, t: VehicleType) {
    && after.Keys == before.Keys
    && (forall k, x | k in before && k.0 in cfg.gates && k.1 == t ::
          after[k][x] == if x.slot.id == id then 0 else before[k][x])
    && (forall k | k in before && !(k.0 in cfg.gates && k.1 == t) :: after[k] == before[k])
  }

  /** Removes the slot from the heap of type `t` at every gate; heaps of
      other types are left as they are. */
  method RemoveFromAllGates(cfg: Config, idx: Index, id: SlotId, t: VehicleType) returns (r: Index)
    requires forall g | g in cfg.gates :: (g, t) in idx
    ensures r.Keys == idx.Keys
    ensures forall k, x | k in idx && k.0 in cfg.gates && k.1 == t ::
              r[k][x] == if x.slot.id == id then 0 else idx[k][x]
    ensures forall k | k in idx && !(k.0 in cfg.gates && k.1 == t) :: r[k] == idx[k]
  {
    r := idx;
    var todo := cfg.gates;
    while todo != {}
      invariant todo <= cfg.gates
      invariant r.Keys == idx.Keys
      invariant forall k, x | k in idx && k.0 in cfg.gates - todo && k.1 == t ::
                  r[k][x] == if x.slot.id == id then 0 else idx[k][x]
      invariant forall k | k in idx && !(k.0 in cfg.gates - todo && k.1 == t) :: r[k] == idx[k]
      decreases |todo|
    {
      var g :| g in todo;
      var h := RemoveSlot(r[(g, t)], id);
      r := r[(g, t) := h];
      todo := todo - {g};
    }
  }
}

=== FILE: pricing.dfy ===
/** The fare rule: a free window, then every started hour charged at the
    vehicle type's hourly rate. */
module Pricing {
  import opened Domain

  /** A stored pricing rule (`freeMinutes` and `ratePerHour` are Java
      `int`s). */
  datatype PricingRule = PricingRule(vtype: VehicleType, freeMinutes: Int32, ratePerHour: Int32)

  /** The pricing-rule store, looked up by vehicle type. */
  type RuleTable = map<VehicleType, PricingRule>

  /** `ceil(n / 60.0)` for a positive number of chargeable minutes: the
      number of started hours. */
  function StartedHours(n: int): (h: int)
    requires n > 0
    ensures h >= 1
    ensures (h - 1) * 60 < n <= h * 60
  {
    (n + 59) / 60
  }

  /** The hours charged after `minutes` of parking: none within the free
      window, otherwise every started hour past it. */
  function ChargedHours(rule: PricingRule, minutes: int): (h: int)
    ensures h >= 0
    ensures h == 0 <==> minutes <= rule.freeMinutes
    ensures minutes > rule.freeMinutes ==> (h - 1) * 60 < minutes - rule.freeMinutes <= h * 60
  {
    if minutes <= rule.freeMinutes then 0 else StartedHours(minutes - rule.freeMinutes)
  }

  /** The fare for `minutes` under `rule`: nothing within the free window,
      otherwise the rate for every started hour past it. */
  function Fare(rule: PricingRule, minutes: int): (f: int)
    ensures minutes <= rule.freeMinutes ==> f == 0
    ensures minutes > rule.freeMinutes ==> f == StartedHours(minutes - rule.freeMinutes) * rule.ratePerHour
  {
    ChargedHours(rule, minutes) * rule.ratePerHour
  }

  /** `calculateFare(type, minutes)`: a type without a rule is refused with
      400. */
  function CalculateFare(rules: RuleTable, t: VehicleType, minutes: int): (r: Result<int, Failure>)
    ensures r.Err? <==> t !in rules
    ensures r.Err? ==> r.error == Failure(400, NoPricingRule)
    ensures r.Ok? ==> r.value == Fare(rules[t], minutes)
  {
    if t !in rules then Err(Failure(400, NoPricingRule))
    else Ok(Fare(rules[t], minutes))
  }

  /** The charged hours are the fewest whole hours that cover the minutes
      past the free window. */
  lemma ChargedHoursIsLeastCover(rule: PricingRule, minutes: int, h: int)
    requires h >= 0 && minutes - rule.freeMinutes <= h * 60
    ensures ChargedHours(rule, minutes) <= h
    ensures minutes - rule.freeMinutes <= ChargedHours(rule, minutes) * 60
  {
  }

  /** Past the free window at least one hour is charged, so with a
      non-negative rate the fare is at least the rate. */
  lemma FareAtLeastOneHour(rule: PricingRule, minutes: int)
    requires minutes > rule.freeMinutes && rule.ratePerHour >= 0
    ensures Fare(rule, minutes) >= rule.ratePerHour
  {
    var h := ChargedHours(rule, minutes);
    assert h >= 1;
    assert h * rule.ratePerHour - rule.ratePerHour == (h - 1) * rule.ratePerHour;
  }

  /** The fare is a whole number of hourly rates. */
  lemma FareIsMultipleOfRate(rule: PricingRule, minutes: int)
    ensures exists h :: h >= 0 && Fare(rule, minutes) == h * rule.ratePerHour
  {
    assert Fare(rule, minutes) == ChargedHours(rule, minutes) * rule.ratePerHour;
  }

  /** Longer stays never get more hours charged. */
  lemma ChargedHoursMonotone(rule: PricingRule, m1: int, m2: int)
    requires m1 <= m2
    ensures ChargedHours(rule, m1) <= ChargedHours(rule, m2)
  {
  }

  /** With a non-negative rate, longer stays never cost less. */
  lemma FareMonotone(rule: PricingRule, m1: int, m2: int)
    requires m1 <= m2 && rule.ratePerHour >= 0
    ensures Fare(rule, m1) <= Fare(rule, m2)
  {
    var h1, h2 := ChargedHours(rule, m1), ChargedHours(rule, m2);
    ChargedHoursMonotone(rule, m1, m2);
    assert h2 * rule.ratePerHour - h1 * rule.ratePerHour == (h2 - h1) * rule.ratePerHour;
  }

  /** The car rule seeded at startup: one free minute, 20 per hour. */
  const CarRule: PricingRule := PricingRule(CAR, 1, 20)

  lemma CarFares()
    ensures Fare(CarRule, 1) == 0
    ensures Fare(CarRule, 61) == 20
    ensures Fare(CarRule, 62) == 40
    ensures Fare(CarRule, 121) == 40
  {
  }
}

=== FILE: roles.dfy ===
/** The role decision for a signed-in user: the token's email claim,
    normalised, looked up in the configured admin list. */
module Roles {
  import opened Domain

  datatype Authority = ROLE_ADMIN | ROLE_USER

  /** `String.trim` removes every character up to U+0020 from both ends. */
  predicate Blank(c: char) {
    c <= ' '
  }

  /** Drops the blank characters at the front. */
  function TrimStart(s: string): (r: string)
    ensures |r| <= |s| && r == s[|s| - |r|..]
    ensures forall i | 0 <= i < |s| - |r| :: Blank(s[i])
    ensures r == [] || !Blank(r[0])
  {
    if |s| > 0 && Blank(s[0]) then TrimStart(s[1..]) else s
  }

  /** Drops the blank characters at the back. */
  function TrimEnd(s: string): (r: string)
    ensures |r| <= |s| && r == s[..|r|]
    ensures forall i | |r| <= i < |s| :: Blank(s[i])
    ensures r == [] || !Blank(r[|r| - 1])
  {
    if |s| > 0 && Blank(s[|s| - 1]) then TrimEnd(s[..|s| - 1]) else s
  }

  /** `trim()`: the blank characters removed from both ends. */
  function Trim(s: string): (r: string)
    ensures |r| <= |s|
    ensures r == [] || (!Blank(r[0]) && !Blank(r[|r| - 1]))
  {
    TrimEnd(TrimStart(s))
  }

  /** What `trim()` keeps is a slice of the input with nothing but blanks
      on either side of it. */
  lemma TrimIsSlice(s: string) returns (i: nat, j: nat)
    ensures i <= j <= |s| && Trim(s) == s[i..j]
    ensures forall k | 0 <= k < i :: Blank(s[k])
    ensures forall k | j <= k < |s| :: Blank(s[k])
  {
    var a := TrimStart(s);
    var b := TrimEnd(a);
    i := |s| - |a|;
    j := i + |b|;
    assert b == s[i..j];
    forall k | j <= k < |s|
      ensures Blank(s[k])
    {
      assert s[k] == a[k - i];
    }
  }

  /** `toLowerCase()` on one character; only ASCII letters are folded. */
  function LowerChar(c: char): (d: char)
    ensures ('A' <= c <= 'Z') ==> 'a' <= d <= 'z' && d as int - c as int == 'a' as int - 'A' as int
    ensures !('A' <= c <= 'Z') ==> d == c
  {
    if 'A' <= c <= 'Z' then (c as int - 'A' as int + 'a' as int) as char else c
  }

  function ToLower(s: string): (r: string)
    ensures |r| == |s| && forall i | 0 <= i < |s| :: r[i] == LowerChar(s[i])
  {
    seq(|s|, i requires 0 <= i < |s| => LowerChar(s[i]))
  }

  /** The email as it is compared: trimmed, then lower-cased. */
  function Normalize(email: string): string {
    ToLower(Trim(email))
  }

  /** Some entry of the list, lower-cased, equals the normalised email. */
  predicate InList(normalized: string, emails: seq<string>) {
    exists i | 0 <= i < |emails| :: ToLower(emails[i]) == normalized
  }

  /** `convert(jwt)`: no email claim gives no authority; an email on the
      admin list gives ROLE_ADMIN alone; any other email gives ROLE_USER
      alone, whether or not the user list names it. */
  function Convert(email: Option<string>, admins: seq<string>, users: seq<string>): (r: seq<Authority>)
    ensures |r| <= 1
    ensures r == [] <==> email.None?
    ensures email.Some? ==> (r == [ROLE_ADMIN] <==> InList(Normalize(email.value), admins))
    ensures email.Some? && !InList(Normalize(email.value), admins) ==> r == [ROLE_USER]
  {
    if email.None? then []
    else
      var normalized := Normalize(email.value);
      if InList(normalized, admins) then [ROLE_ADMIN]
      else if InList(normalized, users) then [ROLE_USER]
      else [ROLE_USER]
  }

  /** The user list never changes the outcome. */
  lemma ConvertIgnoresUserList(email: Option<string>, admins: seq<string>, users1: seq<string>, users2: seq<string>)
    ensures Convert(email, admins, users1) == Convert(email, admins, users2)
  {
  }

  /** An email on both lists is an admin: the admin list is consulted
      first. */
  lemma AdminListWins(email: string, admins: seq<string>, users: seq<string>)
    requires InList(Normalize(email), admins) && InList(Normalize(email), users)
    ensures Convert(Some(email), admins, users) == [ROLE_ADMIN]
  {
  }

  /** Spelling an admin's address with different case or surrounding
      blanks still yields ROLE_ADMIN. */
  lemma AdminMatchIgnoresCaseAndBlanks(admin: string, email: string, admins: seq<string>, users: seq<string>)
    requires admin in admins
    requires Normalize(email) == ToLower(admin)
    ensures Convert(Some(email), admins, users) == [ROLE_ADMIN]
  {
    var i :| 0 <= i < |admins| && admins[i] == admin;
  }

  /** A string without blanks at either end is its own trim. */
  lemma TrimOfTrimmed(s: string)
    requires s == [] || (!Blank(s[0]) && !Blank(s[|s| - 1]))
    ensures Trim(s) == s
  {
    assert TrimStart(s) == s;
    assert TrimEnd(s) == s;
    assert Trim(s) == TrimEnd(TrimStart(s));
  }

  lemma LowerKeepsBlank(c: char)
    ensures Blank(LowerChar(c)) == Blank(c)
  {
  }

  /** Lower-casing twice is lower-casing once. */
  lemma ToLowerIdempotent(s: string)
    ensures ToLower(ToLower(s)) == ToLower(s)
  {
    var l := ToLower(s);
    assert forall i | 0 <= i < |l| :: LowerChar(l[i]) == l[i];
  }

  /** Lower-casing keeps a trimmed string trimmed. */
  lemma LowerOfTrimmed(t: string)
    requires t == [] || (!Blank(t[0]) && !Blank(t[|t| - 1]))
    ensures Trim(ToLower(t)) == ToLower(t)
  {
    var n := ToLower(t);
    if n != [] {
      LowerKeepsBlank(t[0]);
      LowerKeepsBlank(t[|t| - 1]);
    }
    TrimOfTrimmed(n);
  }

  /** Normalising twice is normalising once. */
  lemma NormalizeIdempotent(email: string)
    ensures Normalize(Normalize(email)) == Normalize(email)
  {
    var t := Trim(email);
    LowerOfTrimmed(t);
    ToLowerIdempotent(t);
  }
}

=== FILE: seed.dfy ===
/** The data the application seeds at startup: the slot rows, the pricing
    rules, and the startup build of the heaps over those rows. */
module Seed {
  import opened Domain
  import opened DistanceTable
  import opened HeapIndex
  import opened Allocator
  import opened Pricing
  import opened Workflow
  import opened Admin

  /** The slot rows saved at startup, floor by floor in the order they are
      saved, with the ids an identity column hands out on an empty table. */
  const Floor1: seq<Slot> :=
    [Slot(1, "F1-01", 1, CAR, FREE),
     Slot(2, "F1-02", 1, CAR, FREE),
     Slot(3, "F1-03", 1, BIKE, FREE),
     Slot(4, "F1-04", 1, BIKE, FREE),
     Slot(5, "F1-05", 1, TRUCK, FREE),
     Slot(6, "F1-06", 1, TRUCK, FREE)]

  const Floor2: seq<Slot> :=
    [Slot(7, "F2-01", 2, CAR, FREE),
     Slot(8, "F2-02", 2, CAR, FREE),
     Slot(9, "F2-03", 2, CAR, FREE),
     Slot(10, "F2-04", 2, BIKE, FREE),
     Slot(11, "F2-05", 2, BIKE, FREE),
     Slot(12, "F2-06", 2, TRUCK, FREE),
     Slot(13, "F2-07", 2, TRUCK, FREE)]

  const Floor3: seq<Slot> :=
    [Slot(14, "F3-01", 3, CAR, FREE),
     Slot(15, "F3-02", 3, CAR, FREE),
     Slot(16, "F3-03", 3, BIKE, FREE),
     Slot(17, "F3-04", 3, TRUCK, FREE),
     Slot(18, "F3-05", 3, TRUCK, FREE)]

  const Floor4: seq<Slot> :=
    [Slot(19, "F4-01", 4, CAR, FREE),
     Slot(20, "F4-02", 4, CAR, FREE),
     Slot(21, "F4-03", 4, CAR, FREE),
     Slot(22, "F4-04", 4, BIKE, FREE),
     Slot(23, "F4-05", 4, BIKE, FREE),
     Slot(24, "F4-06", 4, BIKE, FREE),
     Slot(25, "F4-07", 4, TRUCK, FREE),
     Slot(26, "F4-08", 4, TRUCK, FREE)]

  const SeedSlots: seq<Slot> := Floor1 + Floor2 + Floor3 + Floor4

  /** The vehicle type of each row, in save order. */
  function Types(slots: seq<Slot>): (r: seq<VehicleType>)
    ensures |r| == |slots| && forall i | 0 <= i < |slots| :: r[i] == slots[i].vtype
  {
    seq(|slots|, i requires 0 <= i < |slots| => slots[i].vtype)
  }

  lemma TypesAppend(a: seq<Slot>, b: seq<Slot>)
    ensures multiset(Types(a + b)) == multiset(Types(a)) + multiset(Types(b))
  {
    assert Types(a + b) == Types(a) + Types(b);
  }

  lemma Floor1Types()
    ensures |Floor1| == 6
    ensures multiset(Types(Floor1))[CAR] == 2
    ensures multiset(Types(Floor1))[BIKE] == 2
    ensures multiset(Types(Floor1))[TRUCK] == 2
  {
    assert Types(Floor1) == [CAR, CAR, BIKE, BIKE, TRUCK, TRUCK];
  }

  lemma Floor2Types()
    ensures |Floor2| == 7
    ensures multiset(Types(Floor2))[CAR] == 3
    ensures multiset(Types(Floor2))[BIKE] == 2
    ensures multiset(Types(Floor2))[TRUCK] == 2
  {
    assert Types(Floor2) == [CAR, CAR, CAR, BIKE, BIKE, TRUCK, TRUCK];
  }

  lemma Floor3Types()
    ensures |Floor3| == 5
    ensures multiset(Types(Floor3))[CAR] == 2
    ensures multiset(Types(Floor3))[BIKE] == 1
    ensures multiset(Types(Floor3))[TRUCK] == 2
  {
    assert Types(Floor3) == [CAR, CAR, BIKE, TRUCK, TRUCK];
  }

  lemma Floor4Types()
    ensures |Floor4| == 8
    ensures multiset(Types(Floor4))[CAR] == 3
    ensures multiset(Types(Floor4))[BIKE] == 3
    ensures multiset(Types(Floor4))[TRUCK] == 2
  {
    assert Types(Floor4) == [CAR, CAR, CAR, BIKE, BIKE, BIKE, TRUCK, TRUCK];
  }

  /** Ten of the seeded rows are car slots, eight bike slots and eight truck
      slots, twenty-six in all. */
  lemma SeedCounts()
    ensures |SeedSlots| == 26
    ensures multiset(Types(SeedSlots))[CAR] == 10
    ensures multiset(Types(SeedSlots))[BIKE] == 8
    ensures multiset(Types(SeedSlots))[TRUCK] == 8
  {
    Floor1Types();
    Floor2Types();
    Floor3Types();
    Floor4Types();
    TypesAppend(Floor1, Floor2);
    TypesAppend(Floor1 + Floor2, Floor3);
    TypesAppend(Floor1 + Floor2 + Floor3, Floor4);
  }
  lemma Floor1Rows()
    ensures forall i | 0 <= i < |Floor1| ::
              && Floor1[i].id == 1 + i && Floor1[i].floor == 1 && Floor1[i].status == FREE
              && |Floor1[i].number| == 5 && Floor1[i].number[1] == '1'
    ensures forall i, j | 0 <= i < j < |Floor1| :: Floor1[i].number != Floor1[j].number
  {
  }

  lemma Floor2Rows()
    ensures forall i | 0 <= i < |Floor2| ::
              && Floor2[i].id == 7 + i && Floor2[i].floor == 2 && Floor2[i].status == FREE
              && |Floor2[i].number| == 5 && Floor2[i].number[1] == '2'
    ensures forall i, j | 0 <= i < j < |Floor2| :: Floor2[i].number != Floor2[j].number
  {
  }

  lemma Floor3Rows()
    ensures forall i | 0 <= i < |Floor3| ::
              && Floor3[i].id == 14 + i && Floor3[i].floor == 3 && Floor3[i].status == FREE
              && |Floor3[i].number| == 5 && Floor3[i].number[1] == '3'
    ensures forall i, j | 0 <= i < j < |Floor3| :: Floor3[i].number != Floor3[j].number
  {
  }

  lemma Floor4Rows()
    ensures forall i | 0 <= i < |Floor4| ::
              && Floor4[i].id == 19 + i && Floor4[i].floor == 4 && Floor4[i].status == FREE
              && |Floor4[i].number| == 5 && Floor4[i].number[1] == '4'
    ensures forall i, j | 0 <= i < j < |Floor4| :: Floor4[i].number != Floor4[j].number
  {
  }

  /** The seeded rows get the ids 1 to 26 in save order, all FREE, on
      floors 1 to 4, and no two share a slot number. */
  lemma SeedRows()
    ensures forall i | 0 <= i < |SeedSlots| ::
              && SeedSlots[i].id == i + 1 && SeedSlots[i].status == FREE && 1 <= SeedSlots[i].floor <= 4
    ensures forall i, j | 0 <= i < j < |SeedSlots| :: SeedSlots[i].number != SeedSlots[j].number
  {
    Floor1Rows();
    Floor2Rows();
    Floor3Rows();
    Floor4Rows();
    SeedCounts();
  }
  /** The slot store after saving `slots` in order into an empty table whose
      identity column starts at 1. */
  function SavedInOrder(slots: seq<Slot>): Directory {
    if slots == [] then map[]
    else SavedInOrder(slots[..|slots| - 1])[|slots| := slots[|slots| - 1]]
  }

  lemma {:induction false} SavedInOrderAt(slots: seq<Slot>, id: int)
    ensures id in SavedInOrder(slots) <==> 1 <= id <= |slots|
    ensures id in SavedInOrder(slots) ==> SavedInOrder(slots)[id] == slots[id - 1]
  {
    if slots != [] && id != |slots| {
      SavedInOrderAt(slots[..|slots| - 1], id);
    }
  }

  /** Saving in order keys the rows 1 to |slots|; each row sits under its own
      id when the ids match, and distinct numbers stay distinct. */
  lemma SavedInOrderShape(slots: seq<Slot>)
    requires forall i | 0 <= i < |slots| :: slots[i].id == i + 1
    requires forall i, j | 0 <= i < j < |slots| :: slots[i].number != slots[j].number
    ensures forall id :: id in SavedInOrder(slots) <==> 1 <= id <= |slots|
    ensures forall id | id in SavedInOrder(slots) :: SavedInOrder(slots)[id] == slots[id - 1]
    ensures Keyed(SavedInOrder(slots)) && UniqueNumbers(SavedInOrder(slots))
  {
    forall id
      ensures id in SavedInOrder(slots) <==> 1 <= id <= |slots|
      ensures id in SavedInOrder(slots) ==> SavedInOrder(slots)[id] == slots[id - 1]
    {
      SavedInOrderAt(slots, id);
    }
    var dir := SavedInOrder(slots);
    forall a, b | a in dir && b in dir && a != b
      ensures dir[a].number != dir[b].number
    {
      if a < b {
        assert 0 <= a - 1 < b - 1 < |slots|;
      } else {
        assert 0 <= b - 1 < a - 1 < |slots|;
      }
    }
  }

  const SeedDirectory: Directory := SavedInOrder(SeedSlots)

  /** The seeded store holds 26 rows under the ids 1 to 26, each row under
      its own id, all FREE, with unique slot numbers. */
  lemma SeedDirectoryShape()
    ensures forall id :: id in SeedDirectory <==> 1 <= id <= 26
    ensures Keyed(SeedDirectory) && UniqueNumbers(SeedDirectory)
    ensures forall id | id in SeedDirectory :: SeedDirectory[id].status == FREE
  {
    SeedCounts();
    SeedRows();
    SavedInOrderShape(SeedSlots);
  }

  /** The pricing rules saved at startup: one free minute for every type,
      then 10, 20 and 30 an hour for bikes, cars and trucks. */
  const SeedRules: RuleTable :=
    map[BIKE := PricingRule(BIKE, 1, 10), CAR := PricingRule(CAR, 1, 20), TRUCK := PricingRule(TRUCK, 1, 30)]

  /** Every type has a rule, stored under its own type, so no fare request
      is refused for want of one. */
  lemma SeedRulesShape(t: VehicleType, minutes: int)
    ensures t in SeedRules && SeedRules[t].vtype == t && SeedRules[t].freeMinutes == 1
    ensures CalculateFare(SeedRules, t, minutes).Ok?
    ensures SeedRules[CAR] == CarRule
    ensures SeedRules[BIKE].ratePerHour == 10 && SeedRules[TRUCK].ratePerHour == 30
  {
  }

  /** The lot right after startup: the seeded rows, the heaps the startup
      build produced, and no vehicles, tickets or payments. */
  function Opened(cfg: Config): (r: Option<Parking>)
    ensures r.Some? <==> StartupBuild(cfg, Rows(SeedDirectory)).Ok?
    ensures r.Some? ==> r.value.engine.dir == SeedDirectory && r.value.ledger == Ledger(map[], map[], map[])
  {
    match StartupBuild(cfg, Rows(SeedDirectory))
    case Ok(idx) => Some(Parking(Engine(SeedDirectory, idx), Ledger(map[], map[], map[])))
    case Err(_) => None
  }

  /** A lot that opens starts coherent: its heaps mirror the seeded rows
      and the empty ledger agrees with them. So every later entry, fare
      request and exit keeps it coherent. */
  lemma OpenedIsCoherent(cfg: Config)
    requires Opened(cfg).Some?
    ensures Coherent(cfg, Opened(cfg).value)
  {
    SeedDirectoryShape();
    MirrorsMeansRebuilt(cfg, Opened(cfg).value.engine);
  }
}

=== FILE: slot_distance.dfy ===
/** The heap element: a slot paired with its distance from one gate, and the
    order the heaps use. */
module SlotDistance {
  import opened Domain

  /** Both components are fixed when the entry is built; the datatype is
      immutable. */
  datatype Entry = Entry(slot: Slot, distance: Int32)

  /** Sign of an exact (unbounded) integer. */
  function Sign(x: int): int {
    if x < 0 then -1 else if x == 0 then 0 else 1
  }

  /** `compareTo`: `Integer.compare(this.distance, other.distance)`. */
  function Compare(a: Entry, b: Entry): (c: int)
    ensures c == Sign(a.distance - b.distance)
  {
    if a.distance < b.distance then -1
    else if a.distance == b.distance then 0
    else 1
  }

  /** The "comes no later than" relation a min-heap orders by. */
  predicate NoLater(a: Entry, b: Entry) {
    Compare(a, b) <= 0
  }

  lemma CompareAntisymmetric(a: Entry, b: Entry)
    ensures Compare(a, b) == -Compare(b, a)
  {
  }

  lemma CompareTransitive(a: Entry, b: Entry, c: Entry)
    ensures NoLater(a, b) && NoLater(b, c) ==> NoLater(a, c)
    ensures Compare(a, b) < 0 && Compare(b, c) < 0 ==> Compare(a, c) < 0
  {
  }

  lemma CompareTotal(a: Entry, b: Entry)
    ensures NoLater(a, b) || NoLater(b, a)
  {
  }

  /** Two entries at the same distance compare equal whatever their slots:
      the heaps leave ties unordered. */
  lemma TiesAreUnordered(a: Entry, b: Entry)
    ensures Compare(a, b) == 0 <==> a.distance == b.distance
  {
  }

  /** An entry built with the `Integer.MAX_VALUE` sentinel comes no earlier
      than any other entry. */
  lemma SentinelSortsLast(s: Slot, other: Entry)
    ensures NoLater(other, Entry(s, INT_MAX))
    ensures Compare(Entry(s, INT_MAX), other) >= 0
  {
  }

  /** A minimal element of a heap: no entry in it comes before this one. */
  predicate IsMin(x: Entry, heap: multiset<Entry>) {
    x in heap && forall y | y in heap :: NoLater(x, y)
  }

  /** Every non-empty heap has a minimal element. */
  lemma {:induction false} MinExists(heap: multiset<Entry>)
    requires heap != multiset{}
    ensures exists x :: IsMin(x, heap)
    decreases |heap|
  {
    var y :| y in heap;
    var rest := heap - multiset{y};
    assert heap == rest + multiset{y};
    if rest == multiset{} {
      assert IsMin(y, heap);
    } else {
      MinExists(rest);
      var m :| IsMin(m, rest);
      if NoLater(m, y) {
        assert IsMin(m, heap);
      } else {
        forall z | z in heap
          ensures NoLater(y, z)
        {
          if z != y {
            assert z in rest;
          }
        }
        assert IsMin(y, heap);
      }
    }
  }
}

=== FILE: wiring.dfy ===
/** Which heaps the administrative rebuild reaches. The allocator reads the
    heaps built at startup; the administrative operations rebuild a second
    index owned by the heap manager, which nothing reads. This module puts
    both indexes side by side, shows what that does to a slot added by an
    administrator, and gives the synced alternative in which the rebuild
    replaces the heaps the allocator reads. */
module Wiring {
  import opened Domain
  import opened SlotDistance
  import opened DistanceTable
  import opened HeapIndex
  import opened Allocator
  import opened Admin

  /** The slot rows, the heaps the allocator reads, and the heap manager's
      own index. */
  datatype Deployment = Deployment(dir: Directory, served: Index, managed: Index)

  /** What the allocator works on. */
  function Served(d: Deployment): Engine {
    Engine(d.dir, d.served)
  }

  /** `addSlot` as wired: the rows change and the heap manager's index is
      rebuilt; the allocator's heaps stay as they were. */
  function AddAsWritten(cfg: Config, d: Deployment, req: SlotRequest, newId: SlotId): (r: Deployment)
    requires newId !in d.dir
    ensures r.served == d.served
    ensures r.dir == AddSlot(cfg, Store(d.dir, d.managed), req, newId).store.dir
    ensures r.managed == AddSlot(cfg, Store(d.dir, d.managed), req, newId).store.heaps
  {
    var step := AddSlot(cfg, Store(d.dir, d.managed), req, newId);
    Deployment(step.store.dir, d.served, step.store.heaps)
  }

  /** `addSlot` with the rebuild reaching the allocator: one index, which
      the administrative rebuild replaces. */
  function AddSynced(cfg: Config, d: Deployment, req: SlotRequest, newId: SlotId): (r: Deployment)
    requires newId !in d.dir
    ensures r.served == r.managed
    ensures Store(r.dir, r.served) == AddSlot(cfg, Store(d.dir, d.served), req, newId).store
  {
    var step := AddSlot(cfg, Store(d.dir, d.served), req, newId);
    Deployment(step.store.dir, step.store.heaps, step.store.heaps)
  }

  /** `updateSlot` and `deleteSlot` with the rebuild reaching the
      allocator. */
  function UpdateSynced(cfg: Config, d: Deployment, id: SlotId, req: SlotRequest): (r: Deployment)
    ensures r.served == r.managed
    ensures Store(r.dir, r.served) == UpdateSlot(cfg, Store(d.dir, d.served), id, req).store
  {
    var step := UpdateSlot(cfg, Store(d.dir, d.served), id, req);
    Deployment(step.store.dir, step.store.heaps, step.store.heaps)
  }

  function DeleteSynced(cfg: Config, d: Deployment, id: SlotId): (r: Deployment)
    ensures r.served == r.managed
    ensures Store(r.dir, r.served) == DeleteSlot(cfg, Store(d.dir, d.served), id).store
  {
    var step := DeleteSlot(cfg, Store(d.dir, d.served), id);
    Deployment(step.store.dir, step.store.heaps, step.store.heaps)
  }

  /** As wired, a successful add leaves the allocator's heaps without the
      new FREE slot at every gate, so they no longer mirror the rows. */
  lemma AsWrittenAddBreaksMirror(cfg: Config, d: Deployment, req: SlotRequest, newId: SlotId, g: Gate)
    requires Mirrors(cfg, Served(d)) && g in cfg.gates
    requires newId !in d.dir && !NumberTaken(d.dir, req.number)
    ensures (g, req.vtype) in AddAsWritten(cfg, d, req, newId).served
    ensures forall x | x in AddAsWritten(cfg, d, req, newId).served[(g, req.vtype)] :: x.slot.id != newId
    ensures !Mirrors(cfg, Served(AddAsWritten(cfg, d, req, newId)))
  {
    var d' := AddAsWritten(cfg, d, req, newId);
    var s := Slot(newId, req.number, req.floor, req.vtype, FREE);
    var x := Entry(s, DefaultDistance(cfg.dist, g, req.number));
    forall y | y in d'.served[(g, req.vtype)]
      ensures y.slot.id != newId
    {
      MirrorIndexesOnlyFreeRows(cfg, Served(d), (g, req.vtype), y);
    }
    assert d'.dir[newId] == s;
    assert Indexed(cfg, d'.dir, (g, req.vtype), x);
    assert d'.served[(g, req.vtype)][x] == 0;
  }

  /** As wired, a slot added to a lot with no FREE slot of its type is
      never handed out: the next entry of that type at any gate finds the
      lot full although the new slot is FREE. */
  method AsWrittenAddedSlotNeverAllocated(cfg: Config, d: Deployment, req: SlotRequest, newId: SlotId, g: Gate)
    returns (after: Deployment, r: AllocOutcome)
    requires Mirrors(cfg, Served(d)) && g in cfg.gates
    requires newId !in d.dir && !NumberTaken(d.dir, req.number) && !HasFree(d.dir, req.vtype)
    ensures after == AddAsWritten(cfg, d, req, newId)
    ensures HasFree(after.dir, req.vtype)
    ensures r.Full?
  {
    after := AddAsWritten(cfg, d, req, newId);
    assert after.dir[newId].status == FREE && after.dir[newId].vtype == req.vtype;
    MirrorFreshCandidate(cfg, Served(d), g, req.vtype);
    r := Allocate(cfg, Served(after), g, req.vtype);
  }

  /** Synced, every administrative operation leaves the allocator's heaps
      mirroring the rows. */
  lemma SyncedAdminKeepsMirror(cfg: Config, d: Deployment, req: SlotRequest, id: SlotId)
    requires Mirrors(cfg, Served(d))
    ensures id !in d.dir ==> Mirrors(cfg, Served(AddSynced(cfg, d, req, id)))
    ensures Mirrors(cfg, Served(UpdateSynced(cfg, d, id, req)))
    ensures Mirrors(cfg, Served(DeleteSynced(cfg, d, id)))
  {
    var st := Store(d.dir, d.served);
    MirrorsMeansRebuilt(cfg, Served(d));
    AdminOpsKeepSynced(cfg, st, req, id);
    if id !in d.dir {
      SyncedMirrors(cfg, AddSlot(cfg, st, req, id).store);
    }
    SyncedMirrors(cfg, UpdateSlot(cfg, st, id, req).store);
    SyncedMirrors(cfg, DeleteSlot(cfg, st, id).store);
  }

  /** Synced, the slot added to a lot with no FREE slot of its type is the
      one the next entry of that type gets, at any gate. */
  method SyncedAddedSlotAllocated(cfg: Config, d: Deployment, req: SlotRequest, newId: SlotId, g: Gate)
    returns (after: Deployment, r: AllocOutcome)
    requires Mirrors(cfg, Served(d)) && g in cfg.gates
    requires newId !in d.dir && !NumberTaken(d.dir, req.number) && !HasFree(d.dir, req.vtype)
    ensures after == AddSynced(cfg, d, req, newId)
    ensures r.Allocated? && r.slot == Slot(newId, req.number, req.floor, req.vtype, OCCUPIED)
    ensures Mirrors(cfg, r.engine)
  {
    after := AddSynced(cfg, d, req, newId);
    SyncedAdminKeepsMirror(cfg, d, req, newId);
    assert after.dir[newId].status == FREE && after.dir[newId].vtype == req.vtype;
    assert HasFree(after.dir, req.vtype);
    r := Allocate(cfg, Served(after), g, req.vtype);
    assert r.Allocated?;
    MirrorIndexesOnlyFreeRows(cfg, Served(after), (g, req.vtype), r.entry);
    if r.entry.slot.id != newId {
      assert false;
    }
  }
}

=== FILE: workflow.dfy ===
/** The entry, fare and exit operations: their guards, the ticket and
    payment transitions, and how they drive the allocator. The ticket,
    vehicle and payment stores are maps; the current time is an input
    (the minutes parked). */
module Workflow {
  import opened Domain
  import opened SlotDistance
  import opened DistanceTable
  import opened HeapIndex
  import opened Allocator
  import opened Pricing

  datatype TicketStatus = ACTIVE | CLOSED
  datatype PaymentStatus = PENDING | SUCCESS

  /** A vehicle row; rows are never edited once saved. */
  datatype Vehicle = Vehicle(plate: string, vtype: VehicleType, owner: string)

  type TicketId = int

  /** A ticket: the vehicle, the id of the slot row it holds, its status. */
  datatype Ticket = Ticket(vehicle: Vehicle, slot: SlotId, status: TicketStatus)

  /** A payment row of a ticket. */
  datatype Payment = Payment(amount: int, status: PaymentStatus)

  /** The vehicle store (plates are unique, so it is looked up by plate),
      the ticket store, and each ticket's payment rows in the order they
      were saved. */
  datatype Ledger = Ledger(vehicles: map<string, Vehicle>, tickets: map<TicketId, Ticket>,
                           payments: map<TicketId, seq<Payment>>)

  datatype Parking = Parking(engine: Engine, ledger: Ledger)

  /** The state after a request, and its answer or the failure it ended
      with. */
  datatype Step<T> = Step(after: Parking, outcome: Result<T, Failure>)

  /** The fields of an entry request the service reads. */
  datatype EntryRequest = EntryRequest(plate: string, vtype: VehicleType, gate: string, owner: string)

  datatype TicketResponse = TicketResponse(ticketId: TicketId, plate: string, slotNumber: string)
  datatype FareResponse = FareResponse(ticketId: TicketId, plate: string, minutes: int, amount: int)
  datatype Receipt = Receipt(ticketId: TicketId, plate: string, slotNumber: string,
                             paymentStatus: PaymentStatus, paid: int, change: int)

  /** `findActiveTicketByPlate`: the ACTIVE tickets of the plate. */
  function ActiveTickets(l: Ledger, plate: string): set<TicketId> {
    set id | id in l.tickets && l.tickets[id].vehicle.plate == plate && l.tickets[id].status == ACTIVE
  }

  /** `findByTicketId`: the ticket's payment rows. */
  function PaymentsOf(l: Ledger, id: TicketId): seq<Payment> {
    if id in l.payments then l.payments[id] else []
  }

  /** `findByPlateNo(...).orElseGet(save(...))`: the stored vehicle of the
      plate, or a new one built from the request. */
  function VehicleFor(l: Ledger, req: EntryRequest): Vehicle {
    if req.plate in l.vehicles then l.vehicles[req.plate] else Vehicle(req.plate, req.vtype, req.owner)
  }

  /** The ledger side of a successful entry: the vehicle is stored if it
      was not, and an ACTIVE ticket for it on the slot is saved. */
  function Admit(l: Ledger, req: EntryRequest, slot: SlotId, id: TicketId): Ledger {
    var v := VehicleFor(l, req);
    l.(vehicles := l.vehicles[req.plate := v], tickets := l.tickets[id := Ticket(v, slot, ACTIVE)])
  }

  predicate Active(l: Ledger, id: TicketId) {
    id in l.tickets && l.tickets[id].status == ACTIVE
  }

  /** The ledger agrees with the directory: vehicles are stored under their
      plates, payment rows belong to tickets, every ACTIVE ticket holds an
      OCCUPIED row, and no two ACTIVE tickets share a slot or a plate. */
  ghost predicate LedgerCoherent(dir: Directory, l: Ledger) {
    && (forall plate | plate in l.vehicles :: l.vehicles[plate].plate == plate)
    && (forall id | id in l.payments :: id in l.tickets)
    && (forall id | Active(l, id) :: l.tickets[id].slot in dir && dir[l.tickets[id].slot].status == OCCUPIED)
    && (forall a, b | Active(l, a) && Active(l, b) && a != b ::
          l.tickets[a].slot != l.tickets[b].slot && l.tickets[a].vehicle.plate != l.tickets[b].vehicle.plate)
  }

  /** The invariant of a running lot: the heaps mirror the directory and
      the ledger agrees with it. */
  ghost predicate Coherent(cfg: Config, p: Parking) {
    Mirrors(cfg, p.engine) && LedgerCoherent(p.engine.dir, p.ledger)
  }

  /** In a coherent ledger a plate has at most one ACTIVE ticket. */
  lemma AtMostOneActive(dir: Directory, l: Ledger, plate: string)
    requires LedgerCoherent(dir, l)
    ensures |ActiveTickets(l, plate)| <= 1
  {
    var s := ActiveTickets(l, plate);
    if |s| > 1 {
      var a, b := TwoMembers(s);
      assert Active(l, a) && Active(l, b);
    }
  }

  /** Two distinct members of a set with more than one. */
  lemma TwoMembers<T>(s: set<T>) returns (a: T, b: T)
    requires |s| > 1
    ensures a in s && b in s && a != b
  {
    a :| a in s;
    assert s == (s - {a}) + {a};
    assert |s - {a}| == |s| - 1;
    b :| b in s - {a};
  }

  /** `enterVehicle`. A plate with an ACTIVE ticket is refused with 409
      before anything else happens (500 if the store somehow holds several);
      an unknown gate name fails with 500; a heap without a fresh candidate
      gives 409 "Parking full". Otherwise the allocated slot is saved
      OCCUPIED, the vehicle is found or stored, and an ACTIVE ticket for it
      is saved under the id the store generates. */
  method EnterVehicle(cfg: Config, p: Parking, req: EntryRequest, id: TicketId) returns (s: Step<TicketResponse>)
    requires Ready(cfg, p.engine.idx) && id !in p.ledger.tickets
    ensures Ready(cfg, s.after.engine.idx)
    // the duplicate check comes first and changes nothing
    ensures ActiveTickets(p.ledger, req.plate) != {} ==>
              && s.after == p
              && s.outcome == Err(if |ActiveTickets(p.ledger, req.plate)| == 1
                                  then Failure(409, VehicleAlreadyInside) else Failure(500, NonUniqueResult))
    ensures ActiveTickets(p.ledger, req.plate) == {} && req.gate !in cfg.gates ==>
              s == Step(p, Err(Failure(500, UnknownGate)))
    // a failed entry writes nothing to the stores
    ensures s.outcome.Err? ==> s.after.ledger == p.ledger && s.after.engine.dir == p.engine.dir
    ensures s.outcome.Ok? <==>
              && ActiveTickets(p.ledger, req.plate) == {} && req.gate in cfg.gates
              && exists x | x in p.engine.idx[(req.gate, req.vtype)] :: Fresh(x, p.engine.dir)
    ensures s.outcome.Err? && s.outcome.error.reason == ParkingFull ==>
              && s.outcome.error.status == 409
              && forall x | x in p.engine.idx[(req.gate, req.vtype)] :: !Fresh(x, p.engine.dir)
    // a heap without a fresh candidate is drained and the lot is full
    ensures ActiveTickets(p.ledger, req.plate) == {} && req.gate in cfg.gates &&
            (forall x | x in p.engine.idx[(req.gate, req.vtype)] :: !Fresh(x, p.engine.dir)) ==>
              s == Step(Parking(Engine(p.engine.dir, p.engine.idx[(req.gate, req.vtype) := multiset{}]), p.ledger),
                        Err(Failure(409, ParkingFull)))
    // a successful entry: one new ACTIVE ticket on a slot that was FREE and is now OCCUPIED
    ensures s.outcome.Ok? ==>
              && id in s.after.ledger.tickets
              && var slot := s.after.ledger.tickets[id].slot;
              && s.after.ledger == Admit(p.ledger, req, slot, id)
              && slot in p.engine.dir && p.engine.dir[slot].status == FREE
              && slot in s.after.engine.dir && s.after.engine.dir[slot].status == OCCUPIED
              && s.after.engine.dir == p.engine.dir[slot := s.after.engine.dir[slot]]
              && s.outcome.value == TicketResponse(id, req.plate, s.after.engine.dir[slot].number)
    // in any lot, a successful entry only takes entries out of the heaps, and
    // its slot out of every gate's heap of the slot's type
    ensures s.outcome.Ok? ==>
              forall k, x | k in p.engine.idx :: k in s.after.engine.idx && s.after.engine.idx[k][x] <= p.engine.idx[k][x]
    ensures s.outcome.Ok? ==>
              var slot := s.after.ledger.tickets[id].slot;
              forall g', x | g' in cfg.gates && x in s.after.engine.idx[(g', s.after.engine.dir[slot].vtype)] ::
                x.slot.id != slot
    // from a coherent lot
    ensures Coherent(cfg, p) ==> Coherent(cfg, s.after)
    ensures Coherent(cfg, p) ==>
              (s.outcome.Ok? <==> ActiveTickets(p.ledger, req.plate) == {} && req.gate in cfg.gates &&
                                   HasFree(p.engine.dir, req.vtype))
    ensures Coherent(cfg, p) && s.outcome.Err? ==> s.after == p
    ensures Coherent(cfg, p) && ActiveTickets(p.ledger, req.plate) == {} && req.gate in cfg.gates &&
            !HasFree(p.engine.dir, req.vtype) ==>
              s == Step(p, Err(Failure(409, ParkingFull)))
    ensures Coherent(cfg, p) && s.outcome.Ok? ==>
              var slot := s.after.ledger.tickets[id].slot;
              && p.engine.dir[slot].vtype == req.vtype
              && s.after.engine.dir[slot] == p.engine.dir[slot].(status := OCCUPIED)
              && (forall other | other in p.engine.dir && p.engine.dir[other].status == FREE &&
                                 p.engine.dir[other].vtype == req.vtype ::
                    DefaultDistance(cfg.dist, req.gate, p.engine.dir[slot].number) <=
                    DefaultDistance(cfg.dist, req.gate, p.engine.dir[other].number))
              && Release(cfg, s.after.engine, s.after.engine.dir[slot]) == p.engine
  {
    var active := ActiveTickets(p.ledger, req.plate);
    if active != {} {
      var failure := if |active| == 1 then Failure(409, VehicleAlreadyInside) else Failure(500, NonUniqueResult);
      s := Step(p, Err(failure));
      if Coherent(cfg, p) {
        AtMostOneActive(p.engine.dir, p.ledger, req.plate);
      }
      return;
    }
    if req.gate !in cfg.gates {
      s := Step(p, Err(Failure(500, UnknownGate)));
      return;
    }
    var a := Allocate(cfg, p.engine, req.gate, req.vtype);
    if a.Full? {
      s := Step(Parking(a.engine, p.ledger), Err(Failure(409, ParkingFull)));
      return;
    }
    var ledger := Admit(p.ledger, req, a.slot.id, id);
    s := Step(Parking(a.engine, ledger), Ok(TicketResponse(id, req.plate, a.slot.number)));
    assert s.after.ledger.tickets[id].slot == a.slot.id;
    if Coherent(cfg, p) {
      var row := p.engine.dir[a.slot.id];
      MirrorIndexesOnlyFreeRows(cfg, p.engine, (req.gate, req.vtype), a.entry);
      AdmitKeepsCoherent(p.engine.dir, p.ledger, req, a.slot.id, id, a.slot);
      ReleaseUndoesAllocation(cfg, p.engine, a.engine, row);
    }
  }

  /** The ledger side of a successful entry keeps the ledger coherent with
      the directory in which the allocated row is now OCCUPIED. */
  lemma AdmitKeepsCoherent(dir: Directory, l: Ledger, req: EntryRequest, slot: SlotId, id: TicketId, row: Slot)
    requires LedgerCoherent(dir, l) && ActiveTickets(l, req.plate) == {} && id !in l.tickets
    requires slot in dir && dir[slot].status == FREE && row.status == OCCUPIED
    ensures LedgerCoherent(dir[slot := row], Admit(l, req, slot, id))
  {
    var l' := Admit(l, req, slot, id);
    var dir' := dir[slot := row];
    forall a | Active(l', a)
      ensures l'.tickets[a].slot in dir' && dir'[l'.tickets[a].slot].status == OCCUPIED
    {
      if a != id {
        assert Active(l, a);
      }
    }
    forall a, b | Active(l', a) && Active(l', b) && a != b
      ensures l'.tickets[a].slot != l'.tickets[b].slot && l'.tickets[a].vehicle.plate != l'.tickets[b].vehicle.plate
    {
      if a != id && b != id {
        assert Active(l, a) && Active(l, b);
      } else if a == id {
        assert Active(l, b) && b !in ActiveTickets(l, req.plate);
      } else {
        assert Active(l, a) && a !in ActiveTickets(l, req.plate);
      }
    }
  }

  /** `calculateFare`: an unknown ticket or one that is not ACTIVE is
      refused with 400; the fare is priced by the type of the ticket's
      vehicle (400 when that type has no rule); and every successful call
      saves one more PENDING payment row for the ticket. */
  function CalculateTicketFare(p: Parking, rules: RuleTable, id: TicketId, minutes: int): (s: Step<FareResponse>)
    ensures s.outcome.Err? ==> s.after == p
    ensures id !in p.ledger.tickets ==> s.outcome == Err(Failure(400, TicketNotFound))
    ensures id in p.ledger.tickets && !Active(p.ledger, id) ==> s.outcome == Err(Failure(400, TicketNotActive))
    ensures Active(p.ledger, id) ==>
              (s.outcome.Ok? <==> p.ledger.tickets[id].vehicle.vtype in rules)
    ensures Active(p.ledger, id) && p.ledger.tickets[id].vehicle.vtype !in rules ==>
              s.outcome == Err(Failure(400, NoPricingRule))
    ensures s.outcome.Ok? ==>
              && Active(p.ledger, id)
              && var amount := Fare(rules[p.ledger.tickets[id].vehicle.vtype], minutes);
              && s.outcome.value == FareResponse(id, p.ledger.tickets[id].vehicle.plate, minutes, amount)
              && s.after.engine == p.engine
              && s.after.ledger == p.ledger.(payments := p.ledger.payments[id := PaymentsOf(p.ledger, id) + [Payment(amount, PENDING)]])
  {
    if id !in p.ledger.tickets then Step(p, Err(Failure(400, TicketNotFound)))
    else
      var t := p.ledger.tickets[id];
      if t.status != ACTIVE then Step(p, Err(Failure(400, TicketNotActive)))
      else match CalculateFare(rules, t.vehicle.vtype, minutes)
        case Err(failure) => Step(p, Err(failure))
        case Ok(amount) =>
          var rows := PaymentsOf(p.ledger, id) + [Payment(amount, PENDING)];
          Step(p.(ledger := p.ledger.(payments := p.ledger.payments[id := rows])),
               Ok(FareResponse(id, t.vehicle.plate, minutes, amount)))
  }

  /** `exitVehicle`. Refused with 400, before any write, when the ticket is
      unknown, is not ACTIVE, has no payment row, or the amount paid is
      below the row's amount; a ticket with several payment rows fails with
      500. On success the payment row becomes SUCCESS, the ticket CLOSED,
      the ticket's slot row is released, and the change is the amount paid
      less the amount due. */
  function ExitVehicle(cfg: Config, p: Parking, id: TicketId, paid: int): (s: Step<Receipt>)
    requires Ready(cfg, p.engine.idx)
    ensures Ready(cfg, s.after.engine.idx)
    ensures s.outcome.Err? ==> s.after == p
    ensures id !in p.ledger.tickets ==> s.outcome == Err(Failure(400, TicketNotFound))
    ensures id in p.ledger.tickets && !Active(p.ledger, id) ==> s.outcome == Err(Failure(400, TicketNotActive))
    ensures Active(p.ledger, id) && PaymentsOf(p.ledger, id) == [] ==> s.outcome == Err(Failure(400, NoPendingPayment))
    ensures Active(p.ledger, id) && |PaymentsOf(p.ledger, id)| > 1 ==> s.outcome == Err(Failure(500, NonUniqueResult))
    ensures Active(p.ledger, id) && |PaymentsOf(p.ledger, id)| == 1 && paid < PaymentsOf(p.ledger, id)[0].amount ==>
              s.outcome == Err(Failure(400, InsufficientPayment))
    ensures s.outcome.Ok? <==>
              && Active(p.ledger, id) && |PaymentsOf(p.ledger, id)| == 1
              && paid >= PaymentsOf(p.ledger, id)[0].amount
              && p.ledger.tickets[id].slot in p.engine.dir
    ensures s.outcome.Ok? ==>
              var t := p.ledger.tickets[id];
              var due := PaymentsOf(p.ledger, id)[0];
              && s.outcome.value == Receipt(id, t.vehicle.plate, p.engine.dir[t.slot].number, SUCCESS, paid, paid - due.amount)
              && s.outcome.value.change >= 0
              && s.after.ledger == p.ledger.(tickets := p.ledger.tickets[id := t.(status := CLOSED)],
                                             payments := p.ledger.payments[id := [due.(status := SUCCESS)]])
              && s.after.engine == Release(cfg, p.engine, p.engine.dir[t.slot])
    ensures s.outcome.Ok? && Keyed(p.engine.dir) ==>
              var slot := p.ledger.tickets[id].slot;
              slot in s.after.engine.dir && s.after.engine.dir[slot] == p.engine.dir[slot].(status := FREE)
  {
    var l := p.ledger;
    if id !in l.tickets then Step(p, Err(Failure(400, TicketNotFound)))
    else
      var t := l.tickets[id];
      if t.status != ACTIVE then Step(p, Err(Failure(400, TicketNotActive)))
      else
        var rows := PaymentsOf(l, id);
        if |rows| == 0 then Step(p, Err(Failure(400, NoPendingPayment)))
        else if |rows| > 1 then Step(p, Err(Failure(500, NonUniqueResult)))
        else if paid < rows[0].amount then Step(p, Err(Failure(400, InsufficientPayment)))
        else if t.slot !in p.engine.dir then Step(p, Err(Failure(500, SlotMissing)))
        else
          var row := p.engine.dir[t.slot];
          var ledger := l.(tickets := l.tickets[id := t.(status := CLOSED)],
                           payments := l.payments[id := [rows[0].(status := SUCCESS)]]);
          var engine := Release(cfg, p.engine, row);
          assert Ready(cfg, engine.idx);
          Step(Parking(engine, ledger),
               Ok(Receipt(id, t.vehicle.plate, row.number, SUCCESS, paid, paid - rows[0].amount)))
  }

  /** A fare quote keeps the lot coherent. */
  lemma FareKeepsCoherent(cfg: Config, p: Parking, rules: RuleTable, id: TicketId, minutes: int)
    requires Coherent(cfg, p)
    ensures Coherent(cfg, CalculateTicketFare(p, rules, id, minutes).after)
  {
  }

  /** An exit keeps the lot coherent: the slot it frees was OCCUPIED and
      held by no other ACTIVE ticket. */
  lemma ExitKeepsCoherent(cfg: Config, p: Parking, id: TicketId, paid: int)
    requires Coherent(cfg, p)
    ensures Coherent(cfg, ExitVehicle(cfg, p, id, paid).after)
  {
    var s := ExitVehicle(cfg, p, id, paid);
    if s.outcome.Ok? {
      var l := p.ledger;
      var t := l.tickets[id];
      ReleaseKeepsMirror(cfg, p.engine, p.engine.dir[t.slot]);
      var l' := s.after.ledger;
      var dir' := s.after.engine.dir;
      forall a | Active(l', a)
        ensures l'.tickets[a].slot in dir' && dir'[l'.tickets[a].slot].status == OCCUPIED
      {
        assert a != id && Active(l, a);
      }
      forall a, b | Active(l', a) && Active(l', b) && a != b
        ensures l'.tickets[a].slot != l'.tickets[b].slot && l'.tickets[a].vehicle.plate != l'.tickets[b].vehicle.plate
      {
        assert Active(l, a) && Active(l, b);
      }
    }
  }

  /** After a successful exit the plate holds no ACTIVE ticket, so the
      vehicle may enter again, and a second exit with the same ticket is
      refused without any change. */
  lemma ExitIsFinal(cfg: Config, p: Parking, id: TicketId, paid: int, paidAgain: int)
    requires Coherent(cfg, p) && ExitVehicle(cfg, p, id, paid).outcome.Ok?
    ensures ActiveTickets(ExitVehicle(cfg, p, id, paid).after.ledger, p.ledger.tickets[id].vehicle.plate) == {}
    ensures ExitVehicle(cfg, ExitVehicle(cfg, p, id, paid).after, id, paidAgain) ==
              Step(ExitVehicle(cfg, p, id, paid).after, Err(Failure(400, TicketNotActive)))
  {
    var l := p.ledger;
    var plate := l.tickets[id].vehicle.plate;
    var l' := ExitVehicle(cfg, p, id, paid).after.ledger;
    forall b | b in ActiveTickets(l', plate)
      ensures false
    {
      assert Active(l, b) && b != id;
    }
  }

  /** A quote followed by an exit paying at least the quoted amount closes
      the ticket and frees its slot, with the overpayment as change. */
  lemma QuoteThenExit(cfg: Config, p: Parking, rules: RuleTable, id: TicketId, minutes: int, paid: int)
    requires Coherent(cfg, p) && Active(p.ledger, id) && PaymentsOf(p.ledger, id) == []
    requires p.ledger.tickets[id].vehicle.vtype in rules
    requires paid >= Fare(rules[p.ledger.tickets[id].vehicle.vtype], minutes)
    ensures CalculateTicketFare(p, rules, id, minutes).outcome.Ok?
    ensures var q := CalculateTicketFare(p, rules, id, minutes);
            var x := ExitVehicle(cfg, q.after, id, paid);
            && x.outcome.Ok?
            && x.outcome.value.change == paid - q.outcome.value.amount
            && x.after.ledger.tickets[id].status == CLOSED
            && x.after.engine.dir[p.ledger.tickets[id].slot].status == FREE
  {
    var q := CalculateTicketFare(p, rules, id, minutes);
    assert PaymentsOf(q.after.ledger, id) == [Payment(q.outcome.value.amount, PENDING)];
  }

  /** Quoting a fare a second time leaves the ticket with two payment rows,
      after which every exit with that ticket fails with 500: the payment
      lookup expects a single row. */
  lemma RequoteBlocksExit(cfg: Config, p: Parking, rules: RuleTable, id: TicketId, minutes: int, paid: int)
    requires Ready(cfg, p.engine.idx) && Active(p.ledger, id) && |PaymentsOf(p.ledger, id)| >= 1
    requires p.ledger.tickets[id].vehicle.vtype in rules
    ensures ExitVehicle(cfg, CalculateTicketFare(p, rules, id, minutes).after, id, paid).outcome ==
              Err(Failure(500, NonUniqueResult))
  {
    var q := CalculateTicketFare(p, rules, id, minutes);
    assert |PaymentsOf(q.after.ledger, id)| == |PaymentsOf(p.ledger, id)| + 1;
  }
}
